=== FILE: README.md ===
# PreLoadIOContext cache core, modelled in Dafny

This project models the range-aware disk cache that `PreLoadIOContext` puts
in front of a remote media stream. It covers four parts:

- the entry index (`CacheEntry` and `entryList`), which maps logical stream
  offsets to offsets in one cache file;
- the cursor state machine of `CacheIOContext`: `read`, `seek`, `fileSize`
  and `close`, with the `urlPos` and `eof` observers;
- prefetching in `PreLoadIOContext`: `findURLPos`, `more`, `loadedSize`,
  and the `seek` override;
- the two eviction policies: the ring reuse of `LimitCacheIOContext.addEntry`,
  and the dual-budget `more` of `LimitPreLoadIOContext`.

Everything is a pure function over immutable values:

- An `Index` is an entry list plus the cache file as a byte sequence.
- An `Engine` is an index plus the cursor fields: `logicalPos`, `urlPos`,
  `end`, `eof`, `fakeUrlPos`, `isJudgeEOF`, and whether a network context
  exists.
- Whatever the network answers is an extra parameter of the transition that
  asks. Seeks answer with an integer. Reads answer with
  `NetRead = Data(bytes) | Status(code <= 0)`, and that answer must fit the
  request size the source computes.
- Disk writes never fail (the source swallows them with `try?`). A write
  past the end of the file leaves zeros in between. A read near the end of
  the file returns fewer bytes, as `read(upToCount:)` does.

Correctness is stated against a ghost `stream`: the true content of the
remote resource. `Valid(ix, stream)` says four things:

- the entries are sorted by logical position;
- they are non-empty and within their ceilings;
- their stored bytes are pairwise disjoint in the file;
- each entry's file bytes equal the stream bytes at its logical range.

An honest network is a lemma hypothesis, never a precondition of a
transition: `HonestRead` for reads, and "fails or lands where asked" for
seeks.

Modules, one per file:

- `Basics`: bytes, `Option`, `FirstWhere`, i.e. Swift's `first(where:)`.
- `CacheEntries`: the entry record.
- `CacheIndex`: index searches, the file, the invariant, the base `addEntry`,
  and read-back.
- `RingPolicy`: the ring `addEntry` as written, plus a corrected version.
- `CacheEngine`: read, seek, fileSize and close.
- `PreLoad`: findURLPos, the seek override and `more`.
- `DualBudget`: the dual-budget `more`.

Some behaviour of the source that the model reproduces deliberately:

- `CacheEntry.isOut(size:)` tests the current size against 8 MiB, not the
  size after the append. An open entry can therefore grow past 8 MiB by one
  append.
- In the dual-budget `more`, the clamp to `maxSize - size` in the fill
  branch never changes the size. That branch is only taken when `isOut` is
  false, and then the incoming size already fits.
- The `seek` override of `PreLoadIOContext` updates the progress marker only
  when the result is positive. A seek into the cache at offset 0 therefore
  leaves `fakeUrlPos` at the old consumer position.
- `more` cuts its request only when `urlPos` lies before the entry it finds.
  If `urlPos` is itself inside a cached range, the fetch can repeat cached
  bytes. A read that served zero bytes can leave the engine in that state.
  `PreLoad.MoreFetchAvoidsCache` therefore takes "`urlPos` is not cached" as
  a hypothesis.

## Model

| member | source | states |
|---|---|---|
| CacheEntries.GrowRespectsLimits | Sources/PreLoadIOContext/CacheIOContext.swift:28-36 | an append allowed by `isOut` keeps the entry within its ceiling, and leaves it at most 8 MiB plus the appended count |
| CacheEntries.IsOutTestsCurrentSize | Sources/PreLoadIOContext/CacheIOContext.swift:28-36 | an open entry of exactly 8 MiB accepts any append, so it grows past 8 MiB |
| CacheEntries.IsOutWhenFull | Sources/PreLoadIOContext/CacheIOContext.swift:28-36 | an entry above 8 MiB, or at its ceiling, refuses every non-empty append |
| CacheIndex.FindContaining | Sources/PreLoadIOContext/CacheIOContext.swift:129 | finds the first entry whose logical range contains the position, and finds none exactly when no entry does |
| CacheIndex.WriteAt | Sources/PreLoadIOContext/CacheIOContext.swift:292-299 | a file write puts the data at the offset, grows the file to cover it, and leaves every other byte unchanged |
| CacheIndex.ReadAt | Sources/PreLoadIOContext/CacheIOContext.swift:131-141 | a file read returns exactly the bytes from the offset up to the requested count or the end of the file, whichever comes first, and nothing from an offset at or past the end |
| CacheIndex.InsertSorted | Sources/PreLoadIOContext/CacheIOContext.swift:269-272 | append-then-sort adds exactly the new entry (as a multiset) and keeps the list sorted by logical position |
| CacheIndex.Place | Sources/PreLoadIOContext/CacheIOContext.swift:258-290 | extends in place only when an abutting entry passes both `isOut` checks; otherwise closes it at its size (own check) or at the gap to the FIRST entry in list order that it would run into (physical check); appends when nothing abuts |
| CacheIndex.AddEntry | Sources/PreLoadIOContext/CacheIOContext.swift:258-275 | the entry count stays the same exactly when the bytes extend an entry in place, and grows by one otherwise; the file never shrinks; sortedness is kept |
| CacheIndex.AddEntryPlaces | Sources/PreLoadIOContext/CacheIOContext.swift:258-290 | in place, only the abutting entry grows and the bytes go right after its stored bytes; when it is closed, it is closed at the ceiling `Place` chose and one new entry is added at the end of the file; otherwise the list gains exactly the new entry and the file exactly the bytes |
| CacheIndex.AddEntryKeepsCached | Sources/PreLoadIOContext/CacheIOContext.swift:258-290 | the unbounded cache never forgets a position: whatever was cached before `addEntry` is cached after it |
| CacheIndex.AddEntryValid | Sources/PreLoadIOContext/CacheIOContext.swift:258-299 | `addEntry` of the stream's own bytes keeps the index valid: sorted, physically disjoint, every entry mapping to the stream |
| CacheIndex.AddEntryCovers | Sources/PreLoadIOContext/CacheIOContext.swift:258-275 | after `addEntry` every position of the new bytes is found in some entry |
| CacheIndex.AddEntryReadBack | Sources/PreLoadIOContext/CacheIOContext.swift:258-299 | round trip: bytes indexed by `addEntry` read back through the index as the same bytes |
| CacheIndex.ValidServesStream | Sources/PreLoadIOContext/CacheIOContext.swift:129-141 | a valid index serves the stream's own byte at every cached position |
| RingPolicy.MaxPhysicalPos | Sources/PreLoadIOContext/CacheIOContext.swift:55-57 | the largest physical offset of any entry (0 for none), attained by some entry |
| RingPolicy.AddEntryAsWritten | Sources/PreLoadIOContext/LimitCacheIOContext.swift:26-60 | the source's ring `addEntry` traps exactly when a reclaim needs a second slot and only one entry exists |
| RingPolicy.AsWrittenReclaim | Sources/PreLoadIOContext/LimitCacheIOContext.swift:34-52 | the source's reclaim drops the first entry, and the second whenever the first is too small; the new entry at the first slot's offset holds all the bytes with the summed capacity as ceiling, all bytes are written there, and the count stays or drops by one |
| RingPolicy.AsWrittenAgreesOffReclaim | Sources/PreLoadIOContext/LimitCacheIOContext.swift:26-60 | where the bytes extend an entry in place, or neither the source's trigger nor the corrected one fires, the source's ring `addEntry` and the corrected one give the same index |
| RingPolicy.AddEntry | Sources/PreLoadIOContext/LimitCacheIOContext.swift:26-60 | corrected ring `addEntry`: in place keeps the count; a reclaim starts once the logically last entry is capped or the file has grown past the cap, reuses the first slot's offset, and keeps the count or drops it by one when a second slot is merged; otherwise a new uncapped entry goes at the end of the file; sortedness is kept |
| RingPolicy.ReclaimFirst | Sources/PreLoadIOContext/LimitCacheIOContext.swift:34-52 | corrected reclaim: the new entry takes the first entry's physical offset and its capacity, plus the second's only when that slot follows in the file; it stores at most that many bytes; one entry is dropped when a second slot is merged; sortedness is kept |
| RingPolicy.AddEntryPlaces | Sources/PreLoadIOContext/LimitCacheIOContext.swift:26-60 | corrected ring `addEntry` case by case: in place only the abutting entry grows and the bytes follow its stored bytes; a reclaim removes exactly the first entry (and the merged second) and writes the first `min(count, capacity)` bytes at the first slot; otherwise exactly one uncapped entry and the bytes are appended |
| RingPolicy.AddEntryRingValid | Sources/PreLoadIOContext/LimitCacheIOContext.swift:26-60 | the corrected ring insertion keeps the index valid and every entry's whole capacity to itself |
| RingPolicy.OverCapWhenSourceReclaims | Sources/PreLoadIOContext/LimitCacheIOContext.swift:34 | on a valid index the corrected trigger fires whenever the source's does, since no entry ends past the end of the file |
| RingPolicy.AddEntryCapsFile | Sources/PreLoadIOContext/LimitCacheIOContext.swift:29-51 | with the corrected trigger, a write that does not grow an entry in place leaves the file's length alone once the file is past the cap, and adds at most its own bytes while the file is within it |
| RingPolicy.AsWrittenOverwritesLiveEntry | Sources/PreLoadIOContext/LimitCacheIOContext.swift:40-52 | four reads under a 2-byte cap make the source's ring policy overwrite a live entry: logical byte 20 reads back as 32 |
| RingPolicy.AsWrittenTrapsOnSingleEntry | Sources/PreLoadIOContext/LimitCacheIOContext.swift:40-44 | two reads under a 2-byte cap reach the second `removeFirst()` on a list that has one entry left |
| RingPolicy.RingCapDefeatedByForwardSeek | Sources/PreLoadIOContext/LimitCacheIOContext.swift:34 | under a 10-byte cap, reads of 5 bytes at 70, 20 at 0 and 20 at 40 grow the source's file to 45 bytes without a reclaim, from a valid 25-byte state; the corrected policy reclaims and the file stays at 25 bytes |
| PreLoad.FreshInv | Sources/PreLoadIOContext/CacheIOContext.swift:39-68 | a new engine, main or sub-stream, starts with the invariant of either policy holding for any stream, nothing preloaded, and no cached run to skip |
| CacheEngine.SubStreamReadKeepsEof | Sources/PreLoadIOContext/CacheIOContext.swift:165-168 | a sub-stream instance (`isJudgeEOF` off) never sets `eof` in `read` |
| CacheEngine.SubStreamFileSizeKeepsEof | Sources/PreLoadIOContext/CacheIOContext.swift:219-223 | a sub-stream instance never sets `eof` in `fileSize`, even after a positive size probe |
| PreLoad.SubStreamMoreKeepsEof | Sources/PreLoadIOContext/PreLoadIOContext.swift:103-106 | a sub-stream instance never sets `eof` in `more` |
| DualBudget.SubStreamLimitMoreKeepsEof | Sources/PreLoadIOContext/LimitPreLoadIOContext.swift:91-94 | a sub-stream instance never sets `eof` in the dual-budget `more` |
| CacheEngine.SetUrlPos | Sources/PreLoadIOContext/CacheIOContext.swift:42-46 | assigning `urlPos` raises `end` to at least the new value and never lowers it; the progress marker follows `urlPos` |
| CacheEngine.SetEof | Sources/PreLoadIOContext/CacheIOContext.swift:68-76 | setting `eof` to true flags exactly the entries whose logical end equals `end`; nothing else changes |
| CacheEngine.SetEofKeepsInv | Sources/PreLoadIOContext/CacheIOContext.swift:68-76 | re-flagging entries keeps the index invariant of either policy |
| CacheEngine.MissSize | Sources/PreLoadIOContext/CacheIOContext.swift:158-164 | the miss request is never larger than asked and positive when asked for bytes |
| CacheEngine.MissSizeIsCut | Sources/PreLoadIOContext/CacheIOContext.swift:158-164 | the miss request is exactly `size`, except when the next entry after `logicalPos` starts a positive distance `d < size` past `urlPos`: then it is exactly `d` |
| CacheEngine.Fetch | Sources/PreLoadIOContext/CacheIOContext.swift:158-176 | a positive answer advances `urlPos` and `logicalPos` by exactly its count and indexes the bytes at the old `logicalPos`; any other answer keeps positions, file and ranges, and sets `eof` only on EOF to a non-empty request of an instance that judges the end |
| CacheEngine.Read | Sources/PreLoadIOContext/CacheIOContext.swift:123-177 | at a final end `read` returns EOF and changes nothing; a positive result is at most the size, returns that many bytes and advances `logicalPos` by it; otherwise `logicalPos`, file and ranges stay; `end` never decreases |
| CacheEngine.ReadHit | Sources/PreLoadIOContext/CacheIOContext.swift:129-145 | a hit returns `min(size, entry.size - inBlock)` bytes from physical `entry.physicalPos + inBlock`, which are the stream's bytes, and only advances `logicalPos` |
| CacheEngine.ReadHitIgnoresNetwork | Sources/PreLoadIOContext/CacheIOContext.swift:129-145 | on a hit `read` gives the same outcome whatever the network would answer |
| CacheEngine.MissFetchAvoidsCache | Sources/PreLoadIOContext/CacheIOContext.swift:158-164 | with the network at an uncached `logicalPos`, the clamped request never reaches into any cached range |
| CacheEngine.ReadMiss | Sources/PreLoadIOContext/CacheIOContext.swift:147-176 | on a miss: EOF without a network context; a failed aligning seek is returned unchanged; otherwise the result is the fetch at the aligned position |
| CacheEngine.ReadCorrect | Sources/PreLoadIOContext/CacheIOContext.swift:123-177 | with an honest network, `read` keeps the index invariant of its policy, and a positive result is exactly the stream's bytes at the old `logicalPos` |
| CacheEngine.ReReadSameBytes | Sources/PreLoadIOContext/CacheIOContext.swift:123-177 | two reads from the same position return the same bytes, as far as both reach |
| CacheEngine.Seek | Sources/PreLoadIOContext/CacheIOContext.swift:179-203 | `seek` never touches the index or `eof`; a failure changes nothing; a success puts `logicalPos` at the result; `urlPos` moves only to the result of a network seek |
| CacheEngine.SeekCurIsSet | Sources/PreLoadIOContext/CacheIOContext.swift:182-184 | SEEK_CUR is the absolute seek to `logicalPos + offset` |
| CacheEngine.SeekEndIsSet | Sources/PreLoadIOContext/CacheIOContext.swift:179-203 | SEEK_END is the absolute seek to `end + offset` once `eof` holds; before that it is -1 without a network context, and otherwise the network seek passed on unchanged, whose non-negative answer moves both positions |
| CacheEngine.SeekIntoCache | Sources/PreLoadIOContext/CacheIOContext.swift:189-192 | a non-negative cached target moves only `logicalPos`, returns the target, and ignores the network |
| CacheEngine.SeekOutsideCacheAligns | Sources/PreLoadIOContext/CacheIOContext.swift:193-203 | an honest network seek outside the cache sets `logicalPos == urlPos == target`; a failure leaves the state and returns the network's code |
| CacheEngine.SeekApartIsCached | Sources/PreLoadIOContext/CacheIOContext.swift:179-203 | a successful seek that leaves consumer and network apart was served by the cache: the target is cached and only `logicalPos` moved |
| CacheEngine.FileSize | Sources/PreLoadIOContext/CacheIOContext.swift:205-230 | answers `end` once `eof` holds, -1 without a network context; otherwise sets `end` to the max with the probe, sets `eof` exactly when the probe is positive and the instance judges the end, and returns `end` for a negative probe or a `.ts` URL, else the probe |
| CacheEngine.FileSizeIsFinal | Sources/PreLoadIOContext/CacheIOContext.swift:205-223 | once a positive size is learned, later `fileSize` calls answer `end` whatever the network says |
| CacheEngine.Close | Sources/PreLoadIOContext/CacheIOContext.swift:232-245 | closing always closes the cache file handle and drops the network context; with `saveFile` and `eof` it re-flags exactly the entries ending at `end`; the entry ranges, the file contents and every position stay as they were |
| CacheEngine.ClosedIsOffline | Sources/PreLoadIOContext/CacheIOContext.swift:123-210 | after `close()` every `read` returns EOF and changes nothing, even at a cached position, because the closed file serves no hit and no context is left; a seek the cache cannot serve fails with -1, and `fileSize` does too unless the length was already final |
| PreLoad.RunStop | Sources/PreLoadIOContext/PreLoadIOContext.swift:57-69 | the walk takes entries only while each starts where the previous one ended, and stops at the first one that does not |
| PreLoad.RunEnd | Sources/PreLoadIOContext/PreLoadIOContext.swift:53-69 | a run end exists exactly when `logicalPos` is cached, and lies beyond it |
| PreLoad.FindUrlPos | Sources/PreLoadIOContext/PreLoadIOContext.swift:53-75 | `findURLPos` is nil when `logicalPos` is not cached or the run ends at `urlPos`, and otherwise the run end |
| PreLoad.RunIsCached | Sources/PreLoadIOContext/PreLoadIOContext.swift:53-75 | every position from `logicalPos` up to the run end is cached |
| PreLoad.RunEndIsFirstGap | Sources/PreLoadIOContext/PreLoadIOContext.swift:53-75 | for sorted, non-empty, logically disjoint entries, the run end is the first uncached position |
| PreLoad.PreLoadSeek | Sources/PreLoadIOContext/PreLoadIOContext.swift:36-49 | the index and `eof` never change; a failure only drops the marker to `logicalPos`; a positive seek landing away from `urlPos` keeps `urlPos` and puts the marker at the end of the cached run there, so `loadedSize` is positive; a network seek aligns consumer, network and marker |
| PreLoad.PreLoadSeekLoadedIsCached | Sources/PreLoadIOContext/PreLoadIOContext.swift:17-49 | `loadedSize` counts only cached bytes after a positive seek into the cache, is 0 after a network seek, and a seek landing on 0 away from `urlPos` leaves the marker at the old `logicalPos` |
| PreLoad.MoreSize | Sources/PreLoadIOContext/PreLoadIOContext.swift:96-102 | the request never exceeds `bufferSize` and is positive when it is |
| PreLoad.MoreSizeIsCut | Sources/PreLoadIOContext/PreLoadIOContext.swift:96-102 | the request of `more` is exactly `bufferSize`, cut to the distance to the first entry ending after `urlPos` when that entry starts after it |
| PreLoad.More | Sources/PreLoadIOContext/PreLoadIOContext.swift:77-113 | returns 1 without reading when a cached run continues, moving `urlPos` only on a non-negative seek; -1 at a final end; otherwise a positive result indexes the bytes at the old `urlPos` and advances it exactly, and a failure keeps positions and ranges |
| PreLoad.MoreKeepsValid | Sources/PreLoadIOContext/PreLoadIOContext.swift:77-113 | with an honest network, `more` keeps the index valid |
| PreLoad.MoreCachesFetched | Sources/PreLoadIOContext/PreLoadIOContext.swift:103-112 | every fetched position reads back as the stream's byte |
| PreLoad.MoreFetchAvoidsCache | Sources/PreLoadIOContext/PreLoadIOContext.swift:96-102 | with `urlPos` uncached, the request never reaches into a cached range |
| PreLoad.MoreSkipsCachedRun | Sources/PreLoadIOContext/PreLoadIOContext.swift:85-92 | inside a cached run `more` downloads nothing, an honest seek moves `urlPos` to the run end, and everything in between is cached |
| DualBudget.BudgetsPartition | Sources/PreLoadIOContext/LimitPreLoadIOContext.swift:64-81 | the ahead and watched budgets split the stored bytes exactly |
| DualBudget.WatchedStartsFirst | Sources/PreLoadIOContext/LimitPreLoadIOContext.swift:79-82 | in a sorted list nothing is watched when the first entry starts after the consumer |
| DualBudget.AheadEndsLast | Sources/PreLoadIOContext/LimitPreLoadIOContext.swift:64-70 | in a sorted list nothing is ahead when the last entry starts at or before the consumer |
| DualBudget.PlanFetch | Sources/PreLoadIOContext/LimitPreLoadIOContext.swift:56-89 | an abutting entry that passes `isOut` is filled with the request unchanged; a reclaim removes exactly one entry (last or first), clamps the request to the victim's size, and prepares an empty slot; refusal only when the ahead budget is over |
| DualBudget.PlanFetchBudgets | Sources/PreLoadIOContext/LimitPreLoadIOContext.swift:64-89 | with no entry to fill: over the ahead budget the last entry is reclaimed if it starts beyond `urlPos` and nothing is fetched otherwise; within it, over the watched budget the first entry is reclaimed; within both the whole request goes through `addEntry` |
| DualBudget.Store | Sources/PreLoadIOContext/LimitPreLoadIOContext.swift:90-110 | a positive result advances `urlPos` by exactly the result and, after a reclaim, restores the entry count; a failure keeps `urlPos` and the file, and the victim stays removed |
| DualBudget.LimitMore | Sources/PreLoadIOContext/LimitPreLoadIOContext.swift:30-111 | the parent's early returns (1, -1); returns 0 and changes nothing when the ahead budget is over and nothing lies beyond `urlPos`; otherwise the store step |
| DualBudget.LimitMoreStores | Sources/PreLoadIOContext/LimitPreLoadIOContext.swift:90-110 | delivered bytes are indexed at the old `urlPos`: through `addEntry` on a plain plan, into the victim's emptied slot on a reclaim; never more than the plan asked for |
| DualBudget.LimitMoreCachesFetched | Sources/PreLoadIOContext/LimitPreLoadIOContext.swift:90-110 | with an honest network, every position a dual-budget fetch delivers reads back as the stream's byte, whichever budget rule placed it |
| DualBudget.ReclaimVictim | Sources/PreLoadIOContext/LimitPreLoadIOContext.swift:64-89 | the ahead victim is the entry furthest ahead and lies beyond `urlPos`; the watched victim is the first entry, already reached by the consumer; the request never exceeds the victim's size |
| DualBudget.RefillValid | Sources/PreLoadIOContext/LimitPreLoadIOContext.swift:99-105 | refilling a reclaimed slot with the stream's bytes keeps the index valid |
| DualBudget.LimitMoreKeepsValid | Sources/PreLoadIOContext/LimitPreLoadIOContext.swift:30-111 | with an honest network, the dual-budget `more` keeps the index valid on every path |
| DualBudget.RefillReadBack | Sources/PreLoadIOContext/LimitPreLoadIOContext.swift:99-105 | bytes put into a reclaimed slot read back unchanged |

## Left out

- The FFmpeg bridge is not modelled: `getURLContext`, the `avio_alloc_context` callbacks and the opaque pointers. It is pointer plumbing.
- Network calls are not modelled. `ffurl_open_whitelist`, `ffurl_read2`, `ffurl_seek2`, `download.read`/`seek` and `readComplete` are oracle parameters. `readComplete` is not part of this model and is treated as one more read. Only its answer matters here.
- The `fileSize` seek back to `urlPos` is ignored. Its result is only logged, so the network position is assumed unchanged.
- The filesystem, persistence and constructors are not modelled: temp directories, md5 naming, plist `save()` and the loading of a saved index. The source's two constructor families, `CacheIOContext.init(url:…)` and the subclasses' `init(download:md5:…)`, are replaced by `CacheEngine.Fresh`.
- Disk errors are not modelled. The source ignores them with `try?`, so writes are infallible here.
- The `.ts` test in `fileSize` is a boolean input.
- Logging and timing are left out.
- Int32 and UInt64 conversions are unbounded here. The narrowing casts `Int32(maxSize - entry.size)` and `Int32(entry.size)` cannot trap on entries bounded by 8 MiB plus one request, but this is not proved.
- `read` with a nil buffer is left out. It returns 0 before anything else happens.
- CacheEngine.Read: reads happen one call at a time. Concurrency between `read` and `more` is out of scope, as in the source, which runs them on the caller's threads without locks. Under the ring policy it inserts through the corrected `RingPolicy.AddEntry`, not through the source's `addEntry` as written (see Findings).
- RingPolicy.AddEntry: with a reclaim, it stores only as many bytes as the reclaimed space holds. The rest of a larger answer is returned to the caller but not cached.
- RingPolicy.ReclaimFirst: it is the corrected reclaim branch. It merges a second slot only when that slot follows the first in the file, and it stores at most the reclaimed capacity. The source merges any second entry and writes every byte (see Findings).
- CacheEngine.ReadCorrect: under the ring policy it is proved for the corrected insertion `RingPolicy.AddEntry`, not for the source's `addEntry` as written, which can overwrite live bytes (see Findings). The same holds for `CacheEngine.Read`, `CacheEngine.ReReadSameBytes` and every other member that inserts through `CacheEngine.Insert`.
- CacheEngine.ReReadSameBytes: it rests on `CacheEngine.ReadCorrect`, so under the ring policy it holds for the corrected insertion only.
- CacheEngine.Close: without `saveFile` the source also deletes the cache file and the saved index from disk. The deletion is not modelled, because persistence is not. The closed handle already makes every later read fail.
- CacheEngine.Fetch: an insert with the cache file closed is modelled as succeeding. No such call follows `close()`, which drops the network context at the same time.
- RingPolicy.AddEntryCapsFile: the file can still pass the cap by growing the physically last entry in place, up to the 8 MiB block limit, as the source allows. The lemma bounds only the other paths.
- PreLoad.RunEndIsFirstGap: it assumes logically disjoint entries. The source does not maintain that. With overlaps the run end is still cached-up-to, but later entries may cover it.
- PreLoad.MoreFetchAvoidsCache: it assumes `urlPos` is not itself cached. The source does not cut the request in that case.

## Findings

| source | as written | input that shows it | evidently intended | confidence | as-written member | corrected member |
|---|---|---|---|---|---|---|
| Sources/PreLoadIOContext/LimitCacheIOContext.swift:40-52 | a reclaim merges the logically second entry's capacity as if it followed the first in the file, then writes all `size` bytes at the first slot, even when they exceed the merged capacity | cap 2; reads of 1 byte at 0, 1 at 10, 3 at 20, then 3 at 30: the last write covers file offsets 0-2, where the live entry for logical 20 starts | never write past the reclaimed space: merge only a physically adjacent second slot, and store at most the reclaimed capacity | high; not executed | RingPolicy.AsWrittenOverwritesLiveEntry | RingPolicy.AddEntryRingValid |
| Sources/PreLoadIOContext/LimitCacheIOContext.swift:40-44 | the second `removeFirst()` runs whenever the first slot is too small, even if no second entry remains | cap 2; a 3-byte read at 0, then a 5-byte read at 10 | merge a second slot only if one exists | high; not executed | RingPolicy.AsWrittenTrapsOnSingleEntry | RingPolicy.AddEntry |
| Sources/PreLoadIOContext/LimitCacheIOContext.swift:34 | the reclaim trigger tests where the logically last entry ends in the file, not where the file ends | cap 10; reads of 5 bytes at 70, 20 at 0, then 20 at 40: the small entry at 70 stays logically last and physically first, so the file grows to 45 bytes, and every later non-abutting read before 70 appends too | reclaim once the file as a whole has grown past the cap | medium; not executed | RingPolicy.RingCapDefeatedByForwardSeek | RingPolicy.AddEntryCapsFile |

=== FILE: basics.dfy ===
/** Small shared vocabulary: bytes, optional values, integer helpers and the
    "first element satisfying a condition" search the cache uses everywhere
    (Swift's `first(where:)` / `firstIndex(where:)`). */
module Basics {

  /** One byte of the cache file or of the remote stream. */
  type Byte = b: int | 0 <= b < 256

  datatype Option<T> = None | Some(value: T) {
    /** The carried value, or `default` when there is none (Swift's `??`). */
    function GetOr(default: T): T {
      match this
      case Some(v) => v
      case None => default
    }
  }

  function Max(a: int, b: int): int { if a >= b then a else b }

  function Min(a: int, b: int): int { if a <= b then a else b }

  /** Index of the first element of `s` that satisfies `p`, or None. */
  function FirstWhere<T>(s: seq<T>, p: T -> bool): (r: Option<nat>)
    ensures r.Some? ==> r.value < |s| && p(s[r.value])
    ensures r.Some? ==> forall j :: 0 <= j < r.value ==> !p(s[j])
    ensures r.None? <==> forall j :: 0 <= j < |s| ==> !p(s[j])
  {
    if |s| == 0 then None
    else if p(s[0]) then Some(0)
    else
      match FirstWhere(s[1..], p)
      case None => None
      case Some(k) => Some(k + 1)
  }

}

=== FILE: cache_engine.dfy ===
/** The cache engine (`CacheIOContext`): a cursor state machine in front of
    a remote byte source. `read`, `seek` and `fileSize` are pure transition
    functions; what the network answers is passed in as oracle parameters,
    and a transition only looks at an answer on the paths where the source
    makes the call. */
module CacheEngine {
  import opened Basics
  import opened CacheEntries
  import opened CacheIndex
  import RingPolicy

  /** FFmpeg's AVERROR_EOF: the negated tag 'E','O','F',' '. */
  const AvErrorEof: int := -541478725

  /** A seek origin: SEEK_SET, SEEK_CUR, SEEK_END, or any other value,
      which is handed to the network unchanged. */
  datatype Whence = Set | Cur | End | Other(code: int)

  /** How new bytes are put into the index on a read miss: the base
      `addEntry`, or the ring policy's override with its cap. */
  datatype Policy = Unbounded | Ring(maxFileSize: nat)

  /** The answer of one network read: some bytes, or a status code <= 0
      (0, a negative error, or AvErrorEof). */
  datatype NetRead = Data(bytes: seq<Byte>) | Status(code: int)
  {
    /** The value the source's read call returns. */
    function Code(): int
    {
      if Data? then |bytes| else code
    }

    /** A reply a read of at most `size` bytes can give. */
    predicate Fits(size: nat)
    {
      if Data? then 0 < |bytes| <= size else code <= 0
    }
  }

  /** The network delivers the stream's own bytes from position `pos`. */
  ghost predicate HonestRead(reply: NetRead, stream: seq<Byte>, pos: int)
  {
    reply.Data? ==> 0 <= pos && pos + |reply.bytes| <= |stream| && reply.bytes == stream[pos .. pos + |reply.bytes|]
  }

  datatype Engine = Engine(
    index: Index,
    logicalPos: int,   // the consumer's position
    urlPos: int,       // the network source's position
    end: int,          // best known stream length
    eof: bool,         // is `end` the true length?
    fakeUrlPos: int,   // prefetch progress marker (see module PreLoad)
    judgeEof: bool,    // false for sub-stream instances
    connected: bool,   // is there a network context at all?
    fileOpen: bool)    // is the cache file handle still open?

  /** A new engine over an empty cache. */
  function Fresh(connected: bool): (s: Engine)
    ensures s.index == Empty() && s.logicalPos == 0 && s.urlPos == 0 && s.end == 0
    ensures !s.eof && s.judgeEof && s.connected == connected && s.fileOpen
  {
    Engine(Empty(), 0, 0, 0, false, 0, true, connected, true)
  }

  /** The only effect of `addSub` kept here: a sub-stream instance never
      concludes that the stream has ended. */
  function SubStream(connected: bool): (s: Engine)
    ensures !s.judgeEof && s.index == Empty() && s.connected == connected
  {
    Fresh(connected).(judgeEof := false)
  }

  // ---------------------------------------------------------------------
  // Property observers

  /** Assigning `urlPos` (with its `didSet`): `end` follows the largest
      position seen, and the prefetch marker follows `urlPos`. */
  function SetUrlPos(s: Engine, p: int): (r: Engine)
    ensures r.urlPos == p && r.fakeUrlPos == p
    ensures r.end >= s.end && r.end >= p && (r.end == s.end || r.end == p)
    ensures r.index == s.index && r.logicalPos == s.logicalPos && r.eof == s.eof
    ensures r.judgeEof == s.judgeEof && r.connected == s.connected
  {
    s.(urlPos := p, end := Max(s.end, p), fakeUrlPos := p)
  }

  /** The `eof` flags `eof = true` leaves on the entries. */
  function MarkEof(es: seq<Entry>, end: int): (r: seq<Entry>)
    ensures |r| == |es|
    ensures forall i :: 0 <= i < |r| ==> r[i] == es[i].(eof := es[i].LogicalEnd() == end)
  {
    if |es| == 0 then [] else [es[0].(eof := es[0].LogicalEnd() == end)] + MarkEof(es[1..], end)
  }

  /** Assigning `eof` (with its `didSet`). */
  function SetEof(s: Engine, b: bool): (r: Engine)
    ensures r.eof == b && r.end == s.end && r.urlPos == s.urlPos && r.logicalPos == s.logicalPos
    ensures r.fakeUrlPos == s.fakeUrlPos && r.judgeEof == s.judgeEof && r.connected == s.connected
    ensures r.index.file == s.index.file && |r.index.entries| == |s.index.entries|
    ensures b ==> forall i :: 0 <= i < |r.index.entries| ==>
                    (r.index.entries[i].eof <==> s.index.entries[i].LogicalEnd() == s.end)
    ensures !b ==> r.index == s.index
  {
    if b then s.(eof := true, index := s.index.(entries := MarkEof(s.index.entries, s.end)))
    else s.(eof := false)
  }

  /** Two entry lists that differ at most in their `eof` flags. */
  ghost predicate SameRanges(a: seq<Entry>, b: seq<Entry>)
  {
    |a| == |b| && forall i :: 0 <= i < |a| ==> b[i] == a[i].(eof := b[i].eof)
  }

  /** Setting the `eof` flags does not disturb the index invariant. */
  lemma SameRangesValid(a: Index, b: Index, stream: seq<Byte>)
    requires Valid(a, stream) && SameRanges(a.entries, b.entries) && a.file == b.file
    ensures Valid(b, stream)
  {
    assert forall i :: 0 <= i < |a.entries| ==> b.entries[i].logicalPos == a.entries[i].logicalPos;
    forall i, j | 0 <= i < j < |b.entries|
      ensures Apart(b.entries[i], b.entries[j])
    {
      assert Apart(a.entries[i], a.entries[j]);
    }
    forall i | 0 <= i < |b.entries|
      ensures Good(b.file, stream, b.entries[i])
    {
      assert Good(a.file, stream, a.entries[i]);
    }
  }

  lemma SameRangesReserved(a: Index, b: Index)
    requires RingPolicy.Reserved(a) && SameRanges(a.entries, b.entries) && a.file == b.file
    ensures RingPolicy.Reserved(b)
  {
    forall i, j | 0 <= i < j < |b.entries|
      ensures RingPolicy.FootprintApart(b.entries[i], b.entries[j])
    {
      assert RingPolicy.FootprintApart(a.entries[i], a.entries[j]);
    }
    forall i | 0 <= i < |b.entries|
      ensures b.entries[i].physicalPos + b.entries[i].Capacity() <= |b.file|
    {
      assert a.entries[i].physicalPos + a.entries[i].Capacity() <= |a.file|;
    }
  }

  // ---------------------------------------------------------------------
  // Index insertion under a policy

  function Insert(policy: Policy, ix: Index, lp: int, data: seq<Byte>): Index
  {
    match policy
    case Unbounded => AddEntry(ix, lp, data)
    case Ring(maxFileSize) => RingPolicy.AddEntry(ix, maxFileSize, lp, data)
  }

  /** The index invariant a policy keeps. */
  ghost predicate Inv(policy: Policy, ix: Index, stream: seq<Byte>)
  {
    Valid(ix, stream) && (policy.Ring? ==> RingPolicy.Reserved(ix))
  }

  lemma InsertKeepsInv(policy: Policy, ix: Index, lp: int, data: seq<Byte>, stream: seq<Byte>)
    requires Inv(policy, ix, stream)
    requires |data| > 0 && 0 <= lp && lp + |data| <= |stream|
    requires data == stream[lp .. lp + |data|]
    ensures Inv(policy, Insert(policy, ix, lp, data), stream)
  {
    match policy
    case Unbounded => AddEntryValid(ix, lp, data, stream);
    case Ring(maxFileSize) => RingPolicy.AddEntryRingValid(ix, maxFileSize, lp, data, stream);
  }

  lemma SetEofKeepsInv(policy: Policy, s: Engine, b: bool, stream: seq<Byte>)
    requires Inv(policy, s.index, stream)
    ensures Inv(policy, SetEof(s, b).index, stream)
  {
    var r := SetEof(s, b);
    assert SameRanges(s.index.entries, r.index.entries);
    SameRangesValid(s.index, r.index, stream);
    if policy.Ring? {
      SameRangesReserved(s.index, r.index);
    }
  }

  // ---------------------------------------------------------------------
  // read

  datatype ReadOutcome = ReadOutcome(engine: Engine, result: int, bytes: seq<Byte>)

  /** The cache-file read of a hit: up to `size` bytes of the entry holding
      `logicalPos`, from the matching physical offset. Once the file handle
      is closed the read fails, which `read` treats like a miss. */
  function HitBytes(s: Engine, size: nat): Option<seq<Byte>>
  {
    if !s.fileOpen then None
    else match FindContaining(s.index.entries, s.logicalPos)
    case None => None
    case Some(i) =>
      var e := s.index.entries[i];
      var inBlock := s.logicalPos - e.logicalPos;
      Some(ReadAt(s.index.file, e.physicalPos + inBlock, Min(size, e.size - inBlock)))
  }

  /** The state after the miss path's aligning network seek, if it succeeds. */
  function AfterSeek(s: Engine, seekReply: int): Engine
  {
    if s.logicalPos != s.urlPos && seekReply >= 0 then SetUrlPos(s, seekReply) else s
  }

  /** The miss path's request size: never more than `size`, and cut at the
      first entry that starts after `logicalPos` when that gap is positive
      and smaller. */
  function MissSize(s: Engine, size: nat): (r: nat)
    ensures r <= size && (size > 0 ==> r > 0)
  {
    match FindNextAfter(s.index.entries, s.logicalPos)
    case None => size
    case Some(i) =>
      var diff := s.index.entries[i].logicalPos - s.urlPos;
      if 0 < diff < size then diff else size
  }

  /** The miss request is the whole `size`, unless the first entry that
      starts after `logicalPos` lies a positive distance `d < size` ahead
      of the network position: then it is exactly `d`. */
  lemma MissSizeIsCut(s: Engine, size: nat)
    ensures var next := FindNextAfter(s.index.entries, s.logicalPos);
            if next.Some? && 0 < s.index.entries[next.value].logicalPos - s.urlPos < size
            then MissSize(s, size) == s.index.entries[next.value].logicalPos - s.urlPos
            else MissSize(s, size) == size
  {
  }

  /** How many bytes a read of `size` asks the network for. */
  function RequestSize(s: Engine, size: nat, seekReply: int): nat
  {
    MissSize(AfterSeek(s, seekReply), size)
  }

  /** The miss path once the network is aligned with `logicalPos`: one
      request of `MissSize` bytes, whose bytes are indexed at `logicalPos`;
      an end-of-file answer to a non-empty request marks the index when
      this context may judge the end. */
  function Fetch(s: Engine, policy: Policy, size: nat, reply: NetRead): (o: ReadOutcome)
    requires reply.Fits(MissSize(s, size))
    ensures o.result == reply.Code()
    ensures o.result > 0 ==>
              && o.bytes == reply.bytes
              && o.engine.logicalPos == s.logicalPos + o.result
              && o.engine.urlPos == s.urlPos + o.result
              && o.engine.index == Insert(policy, s.index, s.logicalPos, reply.bytes)
    ensures o.result <= 0 ==>
              && o.bytes == [] && o.engine.logicalPos == s.logicalPos && o.engine.urlPos == s.urlPos
              && o.engine.index.file == s.index.file
              && SameRanges(s.index.entries, o.engine.index.entries)
              && (o.engine.eof <==> s.eof || (o.result == AvErrorEof && MissSize(s, size) > 0 && s.judgeEof))
    ensures o.engine.end >= s.end
    ensures o.engine.judgeEof == s.judgeEof && o.engine.connected == s.connected
    ensures o.engine.fakeUrlPos == (if o.result > 0 then o.engine.urlPos else s.fakeUrlPos)
  {
    var want := MissSize(s, size);
    var s2 := if reply.Code() == AvErrorEof && want > 0 && s.judgeEof then SetEof(s, true) else s;
    assert SameRanges(s.index.entries, s2.index.entries);
    if reply.Code() <= 0 then ReadOutcome(s2, reply.Code(), [])
    else
      var n := |reply.bytes|;
      var s3 := SetUrlPos(s2, s2.urlPos + n);
      var s4 := s3.(index := Insert(policy, s3.index, s3.logicalPos, reply.bytes));
      ReadOutcome(s4.(logicalPos := s4.logicalPos + n), n, reply.bytes)
  }

  /** `read(buffer:size:)`. */
  function Read(s: Engine, policy: Policy, size: nat, seekReply: int, reply: NetRead): (o: ReadOutcome)
    requires reply.Fits(RequestSize(s, size, seekReply))
    ensures s.logicalPos == s.end && s.eof ==> o == ReadOutcome(s, AvErrorEof, [])
    ensures o.result <= size
    ensures o.result > 0 ==> |o.bytes| == o.result && o.engine.logicalPos == s.logicalPos + o.result
    ensures o.result <= 0 ==> o.engine.logicalPos == s.logicalPos && o.bytes == []
    ensures o.result <= 0 ==> o.engine.index.file == s.index.file && SameRanges(s.index.entries, o.engine.index.entries)
    ensures o.engine.end >= s.end
    ensures o.engine.urlPos != s.urlPos ==> o.engine.fakeUrlPos == o.engine.urlPos
    ensures o.engine.fakeUrlPos != s.fakeUrlPos ==> o.engine.fakeUrlPos == o.engine.urlPos
    ensures o.engine.judgeEof == s.judgeEof && o.engine.connected == s.connected
    ensures o.engine.fileOpen == s.fileOpen
    ensures o.engine.eof != s.eof ==> o.engine.eof && o.result == AvErrorEof && s.judgeEof
  {
    if s.logicalPos == s.end && s.eof then ReadOutcome(s, AvErrorEof, [])
    else
      var hit := HitBytes(s, size);
      if hit.Some? && |hit.value| > 0 then
        ReadOutcome(s.(logicalPos := s.logicalPos + |hit.value|), |hit.value|, hit.value)
      else if !s.connected then ReadOutcome(s, AvErrorEof, [])
      else if s.logicalPos != s.urlPos && seekReply < 0 then ReadOutcome(s, seekReply, [])
      else Fetch(AfterSeek(s, seekReply), policy, size, reply)
  }

  /** Under `Valid`, a hit reads a non-empty run of the stream's own bytes. */
  lemma HitServesStream(s: Engine, size: nat, stream: seq<Byte>)
    requires Valid(s.index, stream)
    requires s.fileOpen && FindContaining(s.index.entries, s.logicalPos).Some?
    requires size > 0
    ensures var e := s.index.entries[FindContaining(s.index.entries, s.logicalPos).value];
            var inBlock := s.logicalPos - e.logicalPos;
            var k := Min(size, e.size - inBlock);
            && 0 < k
            && 0 <= s.logicalPos && s.logicalPos + k <= |stream|
            && e.physicalPos + inBlock + k <= |s.index.file|
            && HitBytes(s, size) == Some(s.index.file[e.physicalPos + inBlock .. e.physicalPos + inBlock + k])
            && HitBytes(s, size) == Some(stream[s.logicalPos .. s.logicalPos + k])
  {
    var i := FindContaining(s.index.entries, s.logicalPos).value;
    var e := s.index.entries[i];
    var inBlock := s.logicalPos - e.logicalPos;
    var k := Min(size, e.size - inBlock);
    assert Good(s.index.file, stream, e);
    HoldsSlice(s.index.file, stream, e, inBlock, k);
  }

  /** A hit is served from the cache file: at most what is left of the
      entry, from the entry's physical offset plus the offset inside it. */
  lemma ReadHit(s: Engine, policy: Policy, size: nat, seekReply: int, reply: NetRead, stream: seq<Byte>)
    requires reply.Fits(RequestSize(s, size, seekReply))
    requires Valid(s.index, stream)
    requires !(s.logicalPos == s.end && s.eof)
    requires s.fileOpen && FindContaining(s.index.entries, s.logicalPos).Some?
    requires size > 0
    ensures var e := s.index.entries[FindContaining(s.index.entries, s.logicalPos).value];
            var inBlock := s.logicalPos - e.logicalPos;
            var o := Read(s, policy, size, seekReply, reply);
            && o.result == Min(size, e.size - inBlock)
            && o.bytes == s.index.file[e.physicalPos + inBlock .. e.physicalPos + inBlock + o.result]
            && o.bytes == stream[s.logicalPos .. s.logicalPos + o.result]
            && o.engine == s.(logicalPos := s.logicalPos + o.result)
  {
    HitServesStream(s, size, stream);
    ReadOfHit(s, policy, size, seekReply, reply);
  }

  /** A hit does not consult the network: `read` gives the same outcome
      whatever the network would have answered. */
  lemma ReadHitIgnoresNetwork(s: Engine, policy: Policy, size: nat, seekReply: int, reply: NetRead,
                              seekReply': int, reply': NetRead, stream: seq<Byte>)
    requires reply.Fits(RequestSize(s, size, seekReply))
    requires reply'.Fits(RequestSize(s, size, seekReply'))
    requires Valid(s.index, stream)
    requires !(s.logicalPos == s.end && s.eof)
    requires s.fileOpen && FindContaining(s.index.entries, s.logicalPos).Some?
    requires size > 0
    ensures Read(s, policy, size, seekReply, reply) == Read(s, policy, size, seekReply', reply')
  {
    HitServesStream(s, size, stream);
    ReadOfHit(s, policy, size, seekReply, reply);
    ReadOfHit(s, policy, size, seekReply', reply');
  }

  /** A non-empty hit is the whole of `read`. */
  lemma ReadOfHit(s: Engine, policy: Policy, size: nat, seekReply: int, reply: NetRead)
    requires reply.Fits(RequestSize(s, size, seekReply))
    requires !(s.logicalPos == s.end && s.eof)
    requires HitBytes(s, size).Some? && |HitBytes(s, size).value| > 0
    ensures var hit := HitBytes(s, size).value;
            Read(s, policy, size, seekReply, reply) == ReadOutcome(s.(logicalPos := s.logicalPos + |hit|), |hit|, hit)
  {
  }

  /** On a miss the first entry starting after `logicalPos` bounds the
      request, so (with the network aligned at `logicalPos`) the fetched
      range never reaches into bytes that are already cached. */
  lemma MissFetchAvoidsCache(s: Engine, size: nat)
    requires Sorted(s.index.entries)
    requires FindContaining(s.index.entries, s.logicalPos).None?
    requires s.urlPos == s.logicalPos
    ensures forall i :: 0 <= i < |s.index.entries| ==>
              s.index.entries[i].LogicalEnd() <= s.logicalPos
              || s.logicalPos + MissSize(s, size) <= s.index.entries[i].logicalPos
  {
    var es := s.index.entries;
    forall i | 0 <= i < |es|
      ensures es[i].LogicalEnd() <= s.logicalPos || s.logicalPos + MissSize(s, size) <= es[i].logicalPos
    {
      assert !es[i].Covers(s.logicalPos);
      if es[i].logicalPos > s.logicalPos {
        var j := FindNextAfter(es, s.logicalPos).value;
        assert j <= i;
      }
    }
  }

  /** The miss path: an aligning seek only when the positions differ (its
      failure is returned as is), a request cut by `MissSize`, and then
      either the bytes are indexed at the old `logicalPos` with both
      positions advanced by their count, or the index keeps its ranges. */
  lemma ReadMiss(s: Engine, policy: Policy, size: nat, seekReply: int, reply: NetRead)
    requires reply.Fits(RequestSize(s, size, seekReply))
    requires !(s.logicalPos == s.end && s.eof)
    requires !s.fileOpen || FindContaining(s.index.entries, s.logicalPos).None? || size == 0
    ensures var o := Read(s, policy, size, seekReply, reply);
            && (!s.connected ==> o == ReadOutcome(s, AvErrorEof, []))
            && (s.connected && s.logicalPos != s.urlPos && seekReply < 0 ==> o == ReadOutcome(s, seekReply, []))
    ensures var o := Read(s, policy, size, seekReply, reply);
            var s1 := AfterSeek(s, seekReply);
            s.connected && (s.logicalPos == s.urlPos || seekReply >= 0) ==>
              && (s.logicalPos != s.urlPos ==> s1.urlPos == seekReply)
              && o == Fetch(s1, policy, size, reply)
  {
    if size == 0 && s.fileOpen {
      match FindContaining(s.index.entries, s.logicalPos)
      case None =>
      case Some(i) =>
        assert HitBytes(s, size) == Some([]);
    }
  }

  /** The fetch keeps the index invariant and passes on the stream's bytes
      when the network answers honestly at `logicalPos`. */
  lemma FetchCorrect(s: Engine, policy: Policy, size: nat, reply: NetRead, stream: seq<Byte>)
    requires reply.Fits(MissSize(s, size))
    requires Inv(policy, s.index, stream)
    requires HonestRead(reply, stream, s.logicalPos)
    ensures ServesStream(policy, s.logicalPos, Fetch(s, policy, size, reply), stream)
  {
    if reply.Code() > 0 {
      FetchStoredCorrect(s, policy, size, reply, stream);
    } else {
      FetchFailedCorrect(s, policy, size, reply, stream);
    }
  }

  /** A successful fetch indexes the stream's bytes and passes them on. */
  lemma FetchStoredCorrect(s: Engine, policy: Policy, size: nat, reply: NetRead, stream: seq<Byte>)
    requires reply.Fits(MissSize(s, size)) && reply.Code() > 0
    requires Inv(policy, s.index, stream)
    requires HonestRead(reply, stream, s.logicalPos)
    ensures ServesStream(policy, s.logicalPos, Fetch(s, policy, size, reply), stream)
  {
    InsertKeepsInv(policy, s.index, s.logicalPos, reply.bytes, stream);
    var o := Fetch(s, policy, size, reply);
    assert o.engine.index == Insert(policy, s.index, s.logicalPos, reply.bytes);
    assert o.bytes == reply.bytes;
  }

  /** A failed fetch only re-flags entries, which keeps the invariant. */
  lemma FetchFailedCorrect(s: Engine, policy: Policy, size: nat, reply: NetRead, stream: seq<Byte>)
    requires reply.Fits(MissSize(s, size)) && reply.Code() <= 0
    requires Inv(policy, s.index, stream)
    ensures ServesStream(policy, s.logicalPos, Fetch(s, policy, size, reply), stream)
  {
    var o := Fetch(s, policy, size, reply);
    SameRangesValid(s.index, o.engine.index, stream);
    if policy.Ring? {
      SameRangesReserved(s.index, o.engine.index);
    }
  }

  /** What a correct `read` delivers: the index invariant still holds and
      a positive result is that many of the stream's bytes from the old
      `logicalPos`. */
  ghost predicate ServesStream(policy: Policy, lp: int, o: ReadOutcome, stream: seq<Byte>)
  {
    && Inv(policy, o.engine.index, stream)
    && (o.result > 0 ==> 0 <= lp && lp + o.result <= |stream| && o.bytes == stream[lp .. lp + o.result])
  }

  lemma HitCorrect(s: Engine, policy: Policy, size: nat, seekReply: int, reply: NetRead, stream: seq<Byte>)
    requires reply.Fits(RequestSize(s, size, seekReply))
    requires Inv(policy, s.index, stream)
    requires !(s.logicalPos == s.end && s.eof)
    requires HitBytes(s, size).Some? && |HitBytes(s, size).value| > 0
    ensures ServesStream(policy, s.logicalPos, Read(s, policy, size, seekReply, reply), stream)
  {
    HitServesStream(s, size, stream);
    ReadOfHit(s, policy, size, seekReply, reply);
  }

  lemma MissCorrect(s: Engine, policy: Policy, size: nat, seekReply: int, reply: NetRead, stream: seq<Byte>)
    requires reply.Fits(RequestSize(s, size, seekReply))
    requires Inv(policy, s.index, stream)
    requires s.logicalPos != s.urlPos ==> seekReply < 0 || seekReply == s.logicalPos
    requires HonestRead(reply, stream, s.logicalPos)
    requires !(s.logicalPos == s.end && s.eof)
    requires !(HitBytes(s, size).Some? && |HitBytes(s, size).value| > 0)
    ensures ServesStream(policy, s.logicalPos, Read(s, policy, size, seekReply, reply), stream)
  {
    if !s.connected || (s.logicalPos != s.urlPos && seekReply < 0) {
    } else {
      var s1 := AfterSeek(s, seekReply);
      assert s1.logicalPos == s.logicalPos && s1.index == s.index;
      FetchCorrect(s1, policy, size, reply, stream);
      assert Read(s, policy, size, seekReply, reply) == Fetch(s1, policy, size, reply);
    }
  }

  /** `read` serves the stream's own bytes and keeps the index invariant,
      provided the network is honest: a successful aligning seek lands on
      `logicalPos`, and a read there returns the stream's bytes. */
  lemma ReadCorrect(s: Engine, policy: Policy, size: nat, seekReply: int, reply: NetRead, stream: seq<Byte>)
    requires reply.Fits(RequestSize(s, size, seekReply))
    requires Inv(policy, s.index, stream)
    requires s.logicalPos != s.urlPos ==> seekReply < 0 || seekReply == s.logicalPos
    requires HonestRead(reply, stream, s.logicalPos)
    ensures ServesStream(policy, s.logicalPos, Read(s, policy, size, seekReply, reply), stream)
  {
    if s.logicalPos == s.end && s.eof {
    } else if HitBytes(s, size).Some? && |HitBytes(s, size).value| > 0 {
      HitCorrect(s, policy, size, seekReply, reply, stream);
    } else {
      MissCorrect(s, policy, size, seekReply, reply, stream);
    }
  }

  /** Reading the same cached position twice gives the same bytes, as far
      as both reads go. */
  lemma ReReadSameBytes(s: Engine, policy: Policy, size: nat, seekReply: int, reply: NetRead,
                        t: Engine, size': nat, seekReply': int, reply': NetRead, stream: seq<Byte>)
    requires reply.Fits(RequestSize(s, size, seekReply))
    requires reply'.Fits(RequestSize(t, size', seekReply'))
    requires Inv(policy, s.index, stream) && Inv(policy, t.index, stream)
    requires t.logicalPos == s.logicalPos
    requires s.logicalPos != s.urlPos ==> seekReply < 0 || seekReply == s.logicalPos
    requires t.logicalPos != t.urlPos ==> seekReply' < 0 || seekReply' == t.logicalPos
    requires HonestRead(reply, stream, s.logicalPos) && HonestRead(reply', stream, t.logicalPos)
    ensures var o := Read(s, policy, size, seekReply, reply);
            var o' := Read(t, policy, size', seekReply', reply');
            o.result > 0 && o'.result > 0 ==>
              forall k :: 0 <= k < o.result && k < o'.result ==> o.bytes[k] == o'.bytes[k]
  {
    ReadCorrect(s, policy, size, seekReply, reply, stream);
    ReadCorrect(t, policy, size', seekReply', reply', stream);
    ServedBytesAgree(policy, s.logicalPos, Read(s, policy, size, seekReply, reply),
                     Read(t, policy, size', seekReply', reply'), stream);
  }

  lemma ServedBytesAgree(policy: Policy, lp: int, o: ReadOutcome, o': ReadOutcome, stream: seq<Byte>)
    requires ServesStream(policy, lp, o, stream) && ServesStream(policy, lp, o', stream)
    ensures o.result > 0 && o'.result > 0 ==>
              forall k :: 0 <= k < o.result && k < o'.result ==> o.bytes[k] == o'.bytes[k]
  {
    if o.result > 0 && o'.result > 0 {
      forall k | 0 <= k < o.result && k < o'.result
        ensures o.bytes[k] == o'.bytes[k]
      {
        assert o.bytes[k] == stream[lp + k];
        assert o'.bytes[k] == stream[lp + k];
      }
    }
  }


  // ---------------------------------------------------------------------
  // seek, fileSize, close

  datatype SeekOutcome = SeekOutcome(engine: Engine, result: int)

  /** The absolute request a seek turns into: SEEK_CUR is relative to
      `logicalPos`, SEEK_END to `end` once `end` is known to be final. */
  function Resolve(s: Engine, offset: int, whence: Whence): (r: (int, Whence))
    ensures r.1 == Set || r == (offset, whence)
  {
    if whence == Cur then (offset + s.logicalPos, Set)
    else if whence == End && s.eof then (offset + s.end, Set)
    else (offset, whence)
  }

  /** `seek(offset:whence:)`; `netReply` is what the network seek to the
      resolved request answers. */
  function Seek(s: Engine, offset: int, whence: Whence, netReply: int): (o: SeekOutcome)
    ensures o.engine.index == s.index && o.engine.eof == s.eof
    ensures o.engine.judgeEof == s.judgeEof && o.engine.connected == s.connected
    ensures o.result < 0 ==> o.engine == s
    ensures o.result >= 0 ==> o.engine.logicalPos == o.result
    ensures o.engine.urlPos != s.urlPos ==> o.engine.urlPos == o.result && o.engine.fakeUrlPos == o.result
    ensures o.engine.end == Max(s.end, o.engine.urlPos) || o.engine.end == s.end
  {
    var (target, w) := Resolve(s, offset, whence);
    if w == Set && target >= 0 && FindContaining(s.index.entries, target).Some? then
      SeekOutcome(s.(logicalPos := target), target)
    else if !s.connected then SeekOutcome(s, -1)
    else if netReply >= 0 then SeekOutcome(SetUrlPos(s.(logicalPos := netReply), netReply), netReply)
    else SeekOutcome(s, netReply)
  }

  /** A relative seek is the absolute seek to `logicalPos + offset`. */
  lemma SeekCurIsSet(s: Engine, offset: int, netReply: int)
    ensures Seek(s, offset, Cur, netReply) == Seek(s, s.logicalPos + offset, Set, netReply)
  {
  }

  /** Once the length is final, a seek from the end is the absolute seek to
      `end + offset`; before that it is left to the network. */
  lemma SeekEndIsSet(s: Engine, offset: int, netReply: int)
    ensures s.eof ==> Seek(s, offset, End, netReply) == Seek(s, s.end + offset, Set, netReply)
    ensures !s.eof && !s.connected ==> Seek(s, offset, End, netReply) == SeekOutcome(s, -1)
    ensures !s.eof && s.connected ==>
              Seek(s, offset, End, netReply)
              == (if netReply >= 0 then SeekOutcome(SetUrlPos(s.(logicalPos := netReply), netReply), netReply)
                  else SeekOutcome(s, netReply))
  {
  }

  /** A seek to a cached position moves only `logicalPos`: it succeeds
      without a network call, whatever the network would have answered. */
  lemma SeekIntoCache(s: Engine, target: int, netReply: int, netReply': int)
    requires target >= 0 && FindContaining(s.index.entries, target).Some?
    ensures Seek(s, target, Set, netReply) == SeekOutcome(s.(logicalPos := target), target)
    ensures Seek(s, target, Set, netReply) == Seek(s, target, Set, netReply')
  {
  }

  /** A seek that succeeds yet leaves the consumer and the network apart
      was served by the cache: it lands on a cached position and leaves
      the network position and the marker alone. */
  lemma SeekApartIsCached(s: Engine, offset: int, whence: Whence, netReply: int)
    ensures var o := Seek(s, offset, whence, netReply);
            o.result >= 0 && o.engine.logicalPos != o.engine.urlPos ==>
              && FindContaining(s.index.entries, o.engine.logicalPos).Some?
              && o.engine == s.(logicalPos := o.result)
  {
  }

  /** A seek outside the cache, answered honestly, leaves the consumer and
      the network at the same position, the requested one. */
  lemma SeekOutsideCacheAligns(s: Engine, target: int, netReply: int)
    requires target < 0 || FindContaining(s.index.entries, target).None?
    requires netReply < 0 || netReply == target
    ensures var o := Seek(s, target, Set, netReply);
            o.result >= 0 ==> o.engine.logicalPos == target && o.engine.urlPos == target && o.engine.end >= target
    ensures var o := Seek(s, target, Set, netReply);
            o.result < 0 ==> o.engine == s && (s.connected ==> o.result == netReply)
  {
  }

  /** A seek never touches the index, so it keeps the invariant. */
  lemma SeekKeepsInv(policy: Policy, s: Engine, offset: int, whence: Whence, netReply: int, stream: seq<Byte>)
    requires Inv(policy, s.index, stream)
    ensures Inv(policy, Seek(s, offset, whence, netReply).engine.index, stream)
  {
  }

  /** `fileSize()`. `sizeProbe` is the network's answer to AVSEEK_SIZE;
      `endProbe` its answer to a seek to the last byte, consulted only
      when the first probe is not positive; `isTs` says whether the URL
      names a `.ts` file. */
  function FileSize(s: Engine, isTs: bool, sizeProbe: int, endProbe: int): (o: SeekOutcome)
    ensures o.engine.logicalPos == s.logicalPos && o.engine.urlPos == s.urlPos
    ensures o.engine.fakeUrlPos == s.fakeUrlPos && o.engine.judgeEof == s.judgeEof
    ensures o.engine.connected == s.connected
    ensures o.engine.index.file == s.index.file && SameRanges(s.index.entries, o.engine.index.entries)
    ensures s.eof ==> o == SeekOutcome(s, s.end)
    ensures !s.eof && !s.connected ==> o == SeekOutcome(s, -1)
    ensures !s.eof && s.connected ==>
              var pos := if sizeProbe <= 0 then endProbe else sizeProbe;
              && o.engine.end == Max(s.end, pos)
              && (o.engine.eof <==> pos > 0 && s.judgeEof)
              && (o.engine.eof ==> forall i :: 0 <= i < |o.engine.index.entries| ==>
                                     (o.engine.index.entries[i].eof <==> s.index.entries[i].LogicalEnd() == o.engine.end))
              && o.result == (if pos < 0 || isTs then o.engine.end else pos)
  {
    if s.eof then SeekOutcome(s, s.end)
    else if !s.connected then SeekOutcome(s, -1)
    else
      var pos := if sizeProbe <= 0 then endProbe else sizeProbe;
      var s1 := s.(end := Max(s.end, pos));
      var s2 := if pos > 0 && s.judgeEof then SetEof(s1, true) else s1;
      assert SameRanges(s.index.entries, s2.index.entries);
      SeekOutcome(s2, if pos < 0 || isTs then s2.end else pos)
  }

  /** Once a positive size is learned (by an instance that may judge the
      end), it is final: later `fileSize` calls answer `end` without asking
      the network, and `read` answers EOF at that position. */
  lemma FileSizeIsFinal(s: Engine, isTs: bool, sizeProbe: int, endProbe: int,
                        isTs': bool, sizeProbe': int, endProbe': int)
    requires !s.eof && s.connected && s.judgeEof
    requires (if sizeProbe <= 0 then endProbe else sizeProbe) > 0
    ensures var t := FileSize(s, isTs, sizeProbe, endProbe).engine;
            t.eof && FileSize(t, isTs', sizeProbe', endProbe') == SeekOutcome(t, t.end)
  {
  }

  lemma FileSizeKeepsInv(policy: Policy, s: Engine, isTs: bool, sizeProbe: int, endProbe: int, stream: seq<Byte>)
    requires Inv(policy, s.index, stream)
    ensures Inv(policy, FileSize(s, isTs, sizeProbe, endProbe).engine.index, stream)
  {
    var t := FileSize(s, isTs, sizeProbe, endProbe).engine;
    SameRangesValid(s.index, t.index, stream);
    if policy.Ring? {
      SameRangesReserved(s.index, t.index);
    }
  }

  /** A sub-stream instance never concludes that the stream has ended:
      with `judgeEof` off, `read` leaves the eof flag as it was. */
  lemma SubStreamReadKeepsEof(s: Engine, policy: Policy, size: nat, seekReply: int, reply: NetRead)
    requires reply.Fits(RequestSize(s, size, seekReply))
    requires !s.judgeEof
    ensures var t := Read(s, policy, size, seekReply, reply).engine;
            t.eof == s.eof && !t.judgeEof
  {
  }

  /** Likewise `fileSize`: a sub-stream learns the size but never sets eof. */
  lemma SubStreamFileSizeKeepsEof(s: Engine, isTs: bool, sizeProbe: int, endProbe: int)
    requires !s.judgeEof
    ensures var t := FileSize(s, isTs, sizeProbe, endProbe).engine;
            t.eof == s.eof && !t.judgeEof
  {
  }

  /** `close()`: the cache file handle and the network context are closed
      and dropped; with `saveFile`, re-assigning a true `eof` refreshes the
      entries' flags before the index would be saved. */
  function Close(s: Engine, saveFile: bool): (r: Engine)
    ensures !r.connected && !r.fileOpen
    ensures r.eof == s.eof && r.end == s.end && r.index.file == s.index.file
    ensures SameRanges(s.index.entries, r.index.entries)
    ensures saveFile && s.eof ==> forall i :: 0 <= i < |r.index.entries| ==>
              (r.index.entries[i].eof <==> r.index.entries[i].LogicalEnd() == r.end)
    ensures !(saveFile && s.eof) ==> r == s.(connected := false, fileOpen := false)
  {
    if saveFile && s.eof then
      var r := SetEof(s, true);
      assert SameRanges(s.index.entries, r.index.entries);
      r.(connected := false, fileOpen := false)
    else s.(connected := false, fileOpen := false)
  }

  /** After `close()` neither the cache file nor the network answers: every
      read ends the stream, even at a cached position; a seek the cache
      cannot serve fails with -1, and so does `fileSize` unless the length
      was already final. */
  lemma ClosedIsOffline(s: Engine, saveFile: bool, target: int, netReply: int,
                        isTs: bool, sizeProbe: int, endProbe: int,
                        policy: Policy, size: nat, seekReply: int, reply: NetRead)
    ensures var c := Close(s, saveFile);
            reply.Fits(RequestSize(c, size, seekReply)) ==>
              Read(c, policy, size, seekReply, reply) == ReadOutcome(c, AvErrorEof, [])
    ensures var c := Close(s, saveFile);
            (target < 0 || FindContaining(c.index.entries, target).None?) ==>
              Seek(c, target, Set, netReply) == SeekOutcome(c, -1)
    ensures var c := Close(s, saveFile);
            !s.eof ==> FileSize(c, isTs, sizeProbe, endProbe) == SeekOutcome(c, -1)
  {
  }
}

=== FILE: cache_entry.dfy ===
/** One contiguous cached byte range (`CacheEntry`): where it sits in the
    stream (logical), where its bytes sit in the cache file (physical), how
    many bytes it holds and the optional ceiling on how many it may hold. */
module CacheEntries {
  import opened Basics

  /** The hard per-entry limit of 8 MiB. */
  const MaxEntrySize: nat := 8 * 1024 * 1024

  datatype Entry = Entry(
    logicalPos: int,
    physicalPos: nat,
    size: nat,
    eof: bool,
    maxSize: Option<nat>)
  {
    /** First logical position after the entry. */
    function LogicalEnd(): int { logicalPos + size }

    /** First physical position after the entry's stored bytes. */
    function PhysicalEnd(): nat { physicalPos + size }

    /** The bytes the entry may occupy: its ceiling, or its size while open. */
    function Capacity(): nat { maxSize.GetOr(size) }

    predicate Covers(p: int) { logicalPos <= p < logicalPos + size }

    /** A set ceiling is never below the stored size. */
    predicate CapacityOk() { maxSize.Some? ==> size <= maxSize.value }
  }

  /** A freshly created entry: not at the stream end. */
  function NewEntry(logicalPos: int, physicalPos: nat, size: nat, maxSize: Option<nat>): (e: Entry)
    ensures e.logicalPos == logicalPos && e.physicalPos == physicalPos
    ensures e.size == size && e.maxSize == maxSize && !e.eof
  {
    Entry(logicalPos, physicalPos, size, false, maxSize)
  }

  /** `CacheEntry.isOut(size:)`: may `n` more bytes NOT be appended to `e`?
      Note that the 8 MiB limit is checked against the current size. */
  predicate IsOut(e: Entry, n: nat)
  {
    e.size > MaxEntrySize || (e.maxSize.Some? && e.size + n > e.maxSize.value)
  }

  /** The entry after `n` more bytes have been appended in place. */
  function Grow(e: Entry, n: nat): (r: Entry)
    ensures r.logicalPos == e.logicalPos && r.physicalPos == e.physicalPos
    ensures r.LogicalEnd() == e.LogicalEnd() + n && r.maxSize == e.maxSize
  {
    e.(size := e.size + n)
  }

  /** Closing an entry: a ceiling is set only when there is none yet. */
  function Close(e: Entry, ceiling: nat): (r: Entry)
    ensures r.maxSize.Some?
    ensures e.maxSize.Some? ==> r == e
    ensures e.maxSize.None? ==> r == e.(maxSize := Some(ceiling))
  {
    if e.maxSize.None? then e.(maxSize := Some(ceiling)) else e
  }

  /** Growing an entry only when `IsOut` is false keeps its ceiling, and an
      open entry can exceed 8 MiB by at most the size of the last append. */
  lemma GrowRespectsLimits(e: Entry, n: nat)
    requires e.CapacityOk()
    requires !IsOut(e, n)
    ensures Grow(e, n).CapacityOk()
    ensures Grow(e, n).size <= MaxEntrySize + n
    ensures e.maxSize.Some? ==> Grow(e, n).size <= e.maxSize.value
  {
  }

  /** `IsOut` is false for any append to an open entry holding exactly
      8 MiB, so such an entry grows past 8 MiB: the limit is not checked
      against the size after the append. */
  lemma IsOutTestsCurrentSize(n: nat)
    requires n > 0
    ensures var e := NewEntry(0, 0, MaxEntrySize, None);
            !IsOut(e, n) && Grow(e, n).size > MaxEntrySize
  {
  }

  /** Every entry above the limit, or with a full ceiling, refuses
      any append of a positive number of bytes. */
  lemma IsOutWhenFull(e: Entry, n: nat)
    requires n > 0
    requires e.size > MaxEntrySize || (e.maxSize.Some? && e.size >= e.maxSize.value)
    ensures IsOut(e, n)
  {
  }
}

=== FILE: cache_index.dfy ===
/** The interval index (`entryList`) together with the cache file it points
    into, and its central mutation `addEntry`.

    Correctness is stated against `stream`, the true content of the remote
    resource: an index is valid for a stream when its entries are sorted by
    logical position, non-empty, within their ceilings, physically disjoint,
    and every entry's bytes in the file are the stream's bytes at the entry's
    logical range. */
module CacheIndex {
  import opened Basics
  import opened CacheEntries

  datatype Index = Index(entries: seq<Entry>, file: seq<Byte>)

  /** A fresh cache: no entries, empty file. */
  function Empty(): (ix: Index)
    ensures |ix.entries| == 0 && |ix.file| == 0
  {
    Index([], [])
  }

  // ---------------------------------------------------------------------
  // Searches over the entry list (all "first in list order", as the source)

  /** The first entry whose logical range contains `p`. */
  function FindContaining(es: seq<Entry>, p: int): (r: Option<nat>)
    ensures r.Some? ==> r.value < |es| && es[r.value].Covers(p)
    ensures r.Some? ==> forall j :: 0 <= j < r.value ==> !es[j].Covers(p)
    ensures r.None? <==> forall j :: 0 <= j < |es| ==> !es[j].Covers(p)
  {
    FirstWhere(es, (e: Entry) => e.Covers(p))
  }

  /** The first entry that starts after `p`. */
  function FindNextAfter(es: seq<Entry>, p: int): (r: Option<nat>)
    ensures r.Some? ==> r.value < |es| && p < es[r.value].logicalPos
    ensures r.Some? ==> forall j :: 0 <= j < r.value ==> es[j].logicalPos <= p
    ensures r.None? <==> forall j :: 0 <= j < |es| ==> es[j].logicalPos <= p
  {
    FirstWhere(es, (e: Entry) => p < e.logicalPos)
  }

  /** The first entry whose logical range ends exactly at `p`. */
  function FindAbutting(es: seq<Entry>, p: int): (r: Option<nat>)
    ensures r.Some? ==> r.value < |es| && es[r.value].LogicalEnd() == p
    ensures r.None? <==> forall j :: 0 <= j < |es| ==> es[j].LogicalEnd() != p
  {
    FirstWhere(es, (e: Entry) => p == e.LogicalEnd())
  }

  /** The first entry whose logical range ends after `p`. */
  function FindEndingAfter(es: seq<Entry>, p: int): (r: Option<nat>)
    ensures r.Some? ==> r.value < |es| && p < es[r.value].LogicalEnd()
    ensures r.Some? ==> forall j :: 0 <= j < r.value ==> es[j].LogicalEnd() <= p
    ensures r.None? <==> forall j :: 0 <= j < |es| ==> es[j].LogicalEnd() <= p
  {
    FirstWhere(es, (e: Entry) => p < e.LogicalEnd())
  }

  /** Would appending `n` bytes after `e`'s stored bytes reach into `f`? */
  predicate Collides(e: Entry, n: nat, f: Entry)
  {
    e.physicalPos < f.physicalPos && e.physicalPos + e.size + n > f.physicalPos
  }

  /** The private `isOut(entry:size:)` search: the first entry, in list
      order, that an in-place append of `n` bytes to `e` would run into. */
  function FindCollision(es: seq<Entry>, e: Entry, n: nat): (r: Option<nat>)
    ensures r.Some? ==> r.value < |es| && Collides(e, n, es[r.value])
    ensures r.Some? ==> forall j :: 0 <= j < r.value ==> !Collides(e, n, es[j])
    ensures r.None? <==> forall j :: 0 <= j < |es| ==> !Collides(e, n, es[j])
  {
    FirstWhere(es, (f: Entry) => Collides(e, n, f))
  }

  // ---------------------------------------------------------------------
  // The cache file

  function Zeros(n: nat): (r: seq<Byte>)
    ensures |r| == n && forall k :: 0 <= k < n ==> r[k] == 0
  {
    if n == 0 then [] else [0] + Zeros(n - 1)
  }

  /** Writing `data` at offset `pos` of the file (a write past the end
      leaves a zero-filled hole, as a file write does). */
  function WriteAt(file: seq<Byte>, pos: nat, data: seq<Byte>): (r: seq<Byte>)
    ensures |r| == Max(|file|, pos + |data|)
    ensures r[pos .. pos + |data|] == data
    ensures forall q :: 0 <= q < |file| && !(pos <= q < pos + |data|) ==> r[q] == file[q]
  {
    var padded := if pos <= |file| then file else file + Zeros(pos - |file|);
    var tail := if pos + |data| < |padded| then padded[pos + |data|..] else [];
    var r := padded[..pos] + data + tail;
    assert r[pos .. pos + |data|] == data;
    r
  }

  /** Reading up to `count` bytes at offset `pos` (a read near the end of
      the file returns fewer bytes, as `read(upToCount:)` does). */
  function ReadAt(file: seq<Byte>, pos: nat, count: nat): (r: seq<Byte>)
    ensures |r| <= count
    ensures pos + count <= |file| ==> r == file[pos .. pos + count]
    ensures pos < |file| && count > 0 ==> |r| > 0
    ensures pos < |file| ==> r == file[pos .. Min(pos + count, |file|)]
    ensures pos >= |file| ==> r == []
  {
    if pos >= |file| then [] else file[pos .. Min(pos + count, |file|)]
  }

  /** A write leaves every range it does not touch as it was. */
  lemma WriteAtFrame(file: seq<Byte>, pos: nat, data: seq<Byte>, a: nat, b: nat)
    requires a <= b <= |file|
    requires b <= pos || pos + |data| <= a
    ensures WriteAt(file, pos, data)[a .. b] == file[a .. b]
  {
    var r := WriteAt(file, pos, data);
    forall q | a <= q < b
      ensures r[q] == file[q]
    {
    }
  }

  // ---------------------------------------------------------------------
  // Invariants

  ghost predicate Sorted(es: seq<Entry>)
  {
    forall i, j :: 0 <= i < j < |es| ==> es[i].logicalPos <= es[j].logicalPos
  }

  /** Two entries' stored bytes do not overlap in the cache file. */
  predicate Apart(a: Entry, b: Entry)
  {
    a.PhysicalEnd() <= b.physicalPos || b.PhysicalEnd() <= a.physicalPos
  }

  ghost predicate Disjoint(es: seq<Entry>)
  {
    forall i, j :: 0 <= i < j < |es| ==> Apart(es[i], es[j])
  }

  /** The file holds, at `e`'s physical range, the stream's bytes at `e`'s
      logical range. */
  ghost predicate Holds(file: seq<Byte>, stream: seq<Byte>, e: Entry)
  {
    && 0 <= e.logicalPos
    && e.LogicalEnd() <= |stream|
    && e.PhysicalEnd() <= |file|
    && file[e.physicalPos .. e.PhysicalEnd()] == stream[e.logicalPos .. e.LogicalEnd()]
  }

  ghost predicate Good(file: seq<Byte>, stream: seq<Byte>, e: Entry)
  {
    e.size > 0 && e.CapacityOk() && Holds(file, stream, e)
  }

  ghost predicate AllGood(es: seq<Entry>, file: seq<Byte>, stream: seq<Byte>)
  {
    forall i :: 0 <= i < |es| ==> Good(file, stream, es[i])
  }

  ghost predicate Valid(ix: Index, stream: seq<Byte>)
  {
    Sorted(ix.entries) && Disjoint(ix.entries) && AllGood(ix.entries, ix.file, stream)
  }

  /** Each byte an entry maps is the stream's byte at that position. */
  lemma HoldsAt(file: seq<Byte>, stream: seq<Byte>, e: Entry, k: nat)
    requires Holds(file, stream, e)
    requires k < e.size
    ensures file[e.physicalPos + k] == stream[e.logicalPos + k]
  {
    assert file[e.physicalPos .. e.PhysicalEnd()][k] == stream[e.logicalPos .. e.LogicalEnd()][k];
  }

  /** A valid index maps each logical range to stream bytes, slice by slice. */
  lemma HoldsSlice(file: seq<Byte>, stream: seq<Byte>, e: Entry, k: nat, m: nat)
    requires Holds(file, stream, e)
    requires k + m <= e.size
    ensures file[e.physicalPos + k .. e.physicalPos + k + m] == stream[e.logicalPos + k .. e.logicalPos + k + m]
  {
    var a := file[e.physicalPos + k .. e.physicalPos + k + m];
    var b := stream[e.logicalPos + k .. e.logicalPos + k + m];
    forall q | 0 <= q < m
      ensures a[q] == b[q]
    {
      HoldsAt(file, stream, e, k + q);
    }
  }

  // ---------------------------------------------------------------------
  // Sorted insertion (`append` followed by `sort` on logicalPos)

  /** Number of leading entries that start at or before `lp`. */
  function InsertionPoint(es: seq<Entry>, lp: int): (k: nat)
    ensures k <= |es|
    ensures forall i :: 0 <= i < k ==> es[i].logicalPos <= lp
    ensures k < |es| ==> lp < es[k].logicalPos
  {
    if |es| == 0 || lp < es[0].logicalPos then 0 else 1 + InsertionPoint(es[1..], lp)
  }

  /** The list with `e` appended and re-sorted; among equal logical
      positions the new entry goes last. */
  function InsertSorted(es: seq<Entry>, e: Entry): (r: seq<Entry>)
    ensures |r| == |es| + 1
    ensures multiset(r) == multiset(es) + multiset{e}
    ensures Sorted(es) ==> Sorted(r)
  {
    var k := InsertionPoint(es, e.logicalPos);
    assert es == es[..k] + es[k..];
    assert Sorted(es) ==> Sorted(es[..k] + [e] + es[k..]) by {
      if Sorted(es) {
        SpliceSorted(es, e, k);
      }
    }
    es[..k] + [e] + es[k..]
  }

  lemma SpliceSorted(es: seq<Entry>, e: Entry, k: nat)
    requires Sorted(es)
    requires k == InsertionPoint(es, e.logicalPos)
    ensures Sorted(es[..k] + [e] + es[k..])
  {
    var r := es[..k] + [e] + es[k..];
    forall i, j | 0 <= i < j < |r|
      ensures r[i].logicalPos <= r[j].logicalPos
    {
      if j < k {
        assert r[i] == es[i] && r[j] == es[j];
      } else if j == k {
        assert r[i] == es[i];
      } else if i == k {
        assert r[j] == es[j - 1];
        assert es[k].logicalPos <= es[j - 1].logicalPos;
      } else if i < k {
        assert r[i] == es[i] && r[j] == es[j - 1];
      } else {
        assert r[i] == es[i - 1] && r[j] == es[j - 1];
      }
    }
  }

  /** Where the inserted entry and the old ones end up. */
  lemma InsertSortedShape(es: seq<Entry>, e: Entry)
    ensures var r := InsertSorted(es, e);
            forall i :: 0 <= i < |r| ==> r[i] == e || r[i] in es
  {
    var k := InsertionPoint(es, e.logicalPos);
    var r := InsertSorted(es, e);
    forall i | 0 <= i < |r|
      ensures r[i] == e || r[i] in es
    {
      if i < k {
        assert r[i] == es[i];
      } else if i > k {
        assert r[i] == es[i - 1];
      }
    }
  }

  /** Where the `i`-th entry after insertion comes from: the new entry
      (`-1`) or the old entry `src`; old entries keep their order. */
  lemma InsertedAt(es: seq<Entry>, e: Entry, i: nat) returns (src: int)
    requires i <= |es|
    ensures var k := InsertionPoint(es, e.logicalPos);
            src == (if i < k then i else if i == k then -1 else i - 1)
    ensures src < |es|
    ensures InsertSorted(es, e)[i] == (if src < 0 then e else es[src])
  {
    var k := InsertionPoint(es, e.logicalPos);
    src := if i < k then i else if i == k then -1 else i - 1;
  }

  /** Inserting an entry physically apart from all others keeps the list
      physically disjoint. */
  lemma InsertKeepsDisjoint(es: seq<Entry>, e: Entry)
    requires Disjoint(es)
    requires forall i :: 0 <= i < |es| ==> Apart(es[i], e)
    ensures Disjoint(InsertSorted(es, e))
  {
    var r := InsertSorted(es, e);
    forall i, j | 0 <= i < j < |r|
      ensures Apart(r[i], r[j])
    {
      var a := InsertedAt(es, e, i);
      var b := InsertedAt(es, e, j);
      if a < 0 {
        assert Apart(es[b], e);
      } else if b < 0 {
        assert Apart(es[a], e);
      } else {
        ApartAt(es, a, b);
      }
    }
  }

  /** Inserting a good entry into a good list gives a good list. */
  lemma InsertKeepsGood(es: seq<Entry>, e: Entry, file: seq<Byte>, stream: seq<Byte>)
    requires AllGood(es, file, stream)
    requires Good(file, stream, e)
    ensures AllGood(InsertSorted(es, e), file, stream)
  {
    InsertSortedShape(es, e);
  }

  /** Dropping entries keeps every invariant that speaks of pairs or of
      single entries. */
  lemma SuffixValid(ix: Index, stream: seq<Byte>, k: nat)
    requires Valid(ix, stream)
    requires k <= |ix.entries|
    ensures Valid(Index(ix.entries[k..], ix.file), stream)
  {
    var es := ix.entries[k..];
    forall i, j | 0 <= i < j < |es|
      ensures Apart(es[i], es[j]) && es[i].logicalPos <= es[j].logicalPos
    {
      assert es[i] == ix.entries[i + k] && es[j] == ix.entries[j + k];
    }
  }

  lemma PrefixValid(ix: Index, stream: seq<Byte>, k: nat)
    requires Valid(ix, stream)
    requires k <= |ix.entries|
    ensures Valid(Index(ix.entries[..k], ix.file), stream)
  {
  }

  // ---------------------------------------------------------------------
  // addEntry

  /** Where `addEntry` puts `n` new bytes that start at logical `lp`. */
  datatype Placement =
    | ExtendAt(i: nat)                       // append in place to entry i
    | CloseAndAppend(i: nat, ceiling: nat)   // close entry i, new entry at end of file
    | Append                                 // no abutting entry: new entry at end of file

  /** The decision of `addEntry`: extend the first abutting entry only when
      neither capacity check fires; the physical check's ceiling is the gap
      to the first entry, in list order, that it would run into. */
  function Place(es: seq<Entry>, lp: int, n: nat): (p: Placement)
    ensures p.ExtendAt? ==>
              && p.i < |es| && es[p.i].LogicalEnd() == lp
              && !IsOut(es[p.i], n)
              && forall j :: 0 <= j < |es| ==> !Collides(es[p.i], n, es[j])
    ensures p.CloseAndAppend? ==>
              && p.i < |es| && es[p.i].LogicalEnd() == lp
              && (IsOut(es[p.i], n) ==> p.ceiling == es[p.i].size)
              && (!IsOut(es[p.i], n) ==>
                    exists j :: && 0 <= j < |es| && Collides(es[p.i], n, es[j])
                                && (forall k :: 0 <= k < j ==> !Collides(es[p.i], n, es[k]))
                                && p.ceiling == es[j].physicalPos - es[p.i].physicalPos)
    ensures p.Append? <==> forall j :: 0 <= j < |es| ==> es[j].LogicalEnd() != lp
    ensures !p.Append? ==> FindAbutting(es, lp) == Some(p.i)
  {
    match FindAbutting(es, lp)
    case None => Append
    case Some(i) =>
      if IsOut(es[i], n) then CloseAndAppend(i, es[i].size)
      else
        match FindCollision(es, es[i], n)
        case None => ExtendAt(i)
        case Some(j) => CloseAndAppend(i, es[j].physicalPos - es[i].physicalPos)
  }

  /** A brand-new entry for `data` at logical `lp`, written at the end of
      the file. */
  function AppendNew(es: seq<Entry>, file: seq<Byte>, lp: int, data: seq<Byte>): (r: Index)
    ensures r.file == file + data
    ensures NewEntry(lp, |file|, |data|, None) in r.entries
    ensures multiset(r.entries) == multiset(es) + multiset{NewEntry(lp, |file|, |data|, None)}
  {
    var e := NewEntry(lp, |file|, |data|, None);
    var r := InsertSorted(es, e);
    assert e in multiset(r);
    Index(r, file + data)
  }

  /** `addEntry(logicalPos:buffer:size:)`: index the bytes `data` that the
      network returned for logical position `lp`. */
  function AddEntry(ix: Index, lp: int, data: seq<Byte>): (r: Index)
    ensures |r.entries| == |ix.entries| || |r.entries| == |ix.entries| + 1
    ensures |r.entries| == |ix.entries| <==> Place(ix.entries, lp, |data|).ExtendAt?
    ensures |ix.file| <= |r.file|
    ensures Sorted(ix.entries) ==> Sorted(r.entries)
  {
    var es := ix.entries;
    match Place(es, lp, |data|)
    case ExtendAt(i) =>
      var e := es[i];
      var r := Index(es[i := Grow(e, |data|)], WriteAt(ix.file, e.PhysicalEnd(), data));
      assert Sorted(es) ==> Sorted(r.entries) by {
        if Sorted(es) {
          forall a, b | 0 <= a < b < |r.entries|
            ensures r.entries[a].logicalPos <= r.entries[b].logicalPos
          {
            assert r.entries[a].logicalPos == es[a].logicalPos;
            assert r.entries[b].logicalPos == es[b].logicalPos;
          }
        }
      }
      r
    case CloseAndAppend(i, ceiling) =>
      var closed := es[i := Close(es[i], ceiling)];
      assert Sorted(es) ==> Sorted(closed) by {
        if Sorted(es) {
          forall a, b | 0 <= a < b < |closed|
            ensures closed[a].logicalPos <= closed[b].logicalPos
          {
            assert closed[a].logicalPos == es[a].logicalPos;
            assert closed[b].logicalPos == es[b].logicalPos;
          }
        }
      }
      AppendNew(closed, ix.file, lp, data)
    case Append =>
      AppendNew(es, ix.file, lp, data)
  }

  /** What `addEntry` does in each placement: an in-place append grows the
      abutting entry and writes after its bytes, leaving every other entry
      as it was; otherwise the abutting entry (if any) is closed and a new
      uncapped entry for the bytes is appended at the end of the file. */
  lemma AddEntryPlaces(ix: Index, lp: int, data: seq<Byte>)
    ensures var r := AddEntry(ix, lp, data);
            var es := ix.entries;
            var added := NewEntry(lp, |ix.file|, |data|, None);
            match Place(es, lp, |data|)
            case ExtendAt(i) =>
              && r.entries == es[i := Grow(es[i], |data|)]
              && r.file == WriteAt(ix.file, es[i].PhysicalEnd(), data)
            case CloseAndAppend(i, ceiling) =>
              && r.file == ix.file + data
              && multiset(r.entries) == multiset(es[i := Close(es[i], ceiling)]) + multiset{added}
            case Append =>
              && r.file == ix.file + data
              && multiset(r.entries) == multiset(es) + multiset{added}
  {
  }

  /** The unbounded cache never forgets: every position cached before
      `addEntry` is still cached after it. */
  lemma AddEntryKeepsCached(ix: Index, lp: int, data: seq<Byte>, p: int)
    requires FindContaining(ix.entries, p).Some?
    ensures FindContaining(AddEntry(ix, lp, data).entries, p).Some?
  {
    var es := ix.entries;
    var j := FindContaining(es, p).value;
    var r := AddEntry(ix, lp, data);
    AddEntryPlaces(ix, lp, data);
    match Place(es, lp, |data|)
    case ExtendAt(i) =>
      assert r.entries[j].Covers(p);
    case CloseAndAppend(i, ceiling) =>
      var closed := es[i := Close(es[i], ceiling)];
      assert closed[j].Covers(p);
      assert closed[j] in multiset(r.entries);
      ListedIsFound(r.entries, closed[j], p);
    case Append =>
      assert es[j] in multiset(r.entries);
      ListedIsFound(r.entries, es[j], p);
  }

  lemma ListedIsFound(es: seq<Entry>, e: Entry, p: int)
    requires e in multiset(es) && e.Covers(p)
    ensures FindContaining(es, p).Some?
  {
    var k :| 0 <= k < |es| && es[k] == e;
    assert es[k].Covers(p);
  }

  // ---------------------------------------------------------------------
  // addEntry keeps the index valid

  lemma ApartAt(es: seq<Entry>, i: nat, j: nat)
    requires Disjoint(es)
    requires i < |es| && j < |es| && i != j
    ensures Apart(es[i], es[j])
  {
    if j < i {
      assert Apart(es[j], es[i]);
    }
  }

  /** Growing the file at its end keeps every entry's bytes where they were. */
  lemma HoldsAfterAppend(file: seq<Byte>, more: seq<Byte>, stream: seq<Byte>, e: Entry)
    requires Holds(file, stream, e)
    ensures Holds(file + more, stream, e)
  {
    assert (file + more)[e.physicalPos .. e.PhysicalEnd()] == file[e.physicalPos .. e.PhysicalEnd()];
  }

  lemma AppendNewValid(es: seq<Entry>, file: seq<Byte>, lp: int, data: seq<Byte>, stream: seq<Byte>)
    requires Valid(Index(es, file), stream)
    requires |data| > 0 && 0 <= lp && lp + |data| <= |stream|
    requires data == stream[lp .. lp + |data|]
    ensures Valid(AppendNew(es, file, lp, data), stream)
  {
    var e := NewEntry(lp, |file|, |data|, None);
    var file' := file + data;
    forall i | 0 <= i < |es|
      ensures Good(file', stream, es[i]) && Apart(es[i], e)
    {
      HoldsAfterAppend(file, data, stream, es[i]);
    }
    assert file'[|file| .. |file| + |data|] == data;
    assert Good(file', stream, e);
    InsertKeepsGood(es, e, file', stream);
    InsertKeepsDisjoint(es, e);
  }

  /** Closing an entry at a ceiling no smaller than its size keeps the
      index valid. */
  lemma CloseValid(ix: Index, stream: seq<Byte>, i: nat, ceiling: nat)
    requires Valid(ix, stream)
    requires i < |ix.entries| && ix.entries[i].size <= ceiling
    ensures Valid(Index(ix.entries[i := Close(ix.entries[i], ceiling)], ix.file), stream)
  {
    var es := ix.entries;
    var closed := es[i := Close(es[i], ceiling)];
    forall a, b | 0 <= a < b < |closed|
      ensures Apart(closed[a], closed[b]) && closed[a].logicalPos <= closed[b].logicalPos
    {
      assert Apart(es[a], es[b]);
    }
  }

  /** The bytes of an entry and of an in-place append to it. */
  lemma GrowHolds(file: seq<Byte>, stream: seq<Byte>, e: Entry, data: seq<Byte>)
    requires Holds(file, stream, e)
    requires e.LogicalEnd() + |data| <= |stream|
    requires data == stream[e.LogicalEnd() .. e.LogicalEnd() + |data|]
    ensures Holds(WriteAt(file, e.PhysicalEnd(), data), stream, Grow(e, |data|))
  {
    var file' := WriteAt(file, e.PhysicalEnd(), data);
    var g := Grow(e, |data|);
    WriteAtFrame(file, e.PhysicalEnd(), data, e.physicalPos, e.PhysicalEnd());
    assert file'[g.physicalPos .. g.PhysicalEnd()]
        == file'[e.physicalPos .. e.PhysicalEnd()] + file'[e.PhysicalEnd() .. e.PhysicalEnd() + |data|];
    assert stream[g.logicalPos .. g.LogicalEnd()]
        == stream[e.logicalPos .. e.LogicalEnd()] + stream[e.LogicalEnd() .. e.LogicalEnd() + |data|];
  }

  lemma ExtendValid(ix: Index, stream: seq<Byte>, i: nat, data: seq<Byte>)
    requires Valid(ix, stream)
    requires i < |ix.entries|
    requires !IsOut(ix.entries[i], |data|)
    requires forall j :: 0 <= j < |ix.entries| ==> !Collides(ix.entries[i], |data|, ix.entries[j])
    requires ix.entries[i].LogicalEnd() + |data| <= |stream|
    requires data == stream[ix.entries[i].LogicalEnd() .. ix.entries[i].LogicalEnd() + |data|]
    ensures Valid(Index(ix.entries[i := Grow(ix.entries[i], |data|)],
                        WriteAt(ix.file, ix.entries[i].PhysicalEnd(), data)), stream)
  {
    var es := ix.entries;
    var e := es[i];
    var g := Grow(e, |data|);
    var es' := es[i := g];
    var file' := WriteAt(ix.file, e.PhysicalEnd(), data);
    GrowHolds(ix.file, stream, e, data);
    GrowRespectsLimits(e, |data|);
    // every other entry lies wholly below `e` or wholly above the append
    forall j | 0 <= j < |es| && j != i
      ensures Apart(es[j], g) && Good(file', stream, es[j])
    {
      ApartAt(es, i, j);
      assert !Collides(e, |data|, es[j]);
      WriteAtFrame(ix.file, e.PhysicalEnd(), data, es[j].physicalPos, es[j].PhysicalEnd());
    }
    forall a, b | 0 <= a < b < |es'|
      ensures Apart(es'[a], es'[b]) && es'[a].logicalPos <= es'[b].logicalPos
    {
      if a == i {
        assert Apart(es[b], g);
      } else if b == i {
        assert Apart(es[a], g);
      } else {
        assert Apart(es[a], es[b]);
      }
    }
  }

  /** `addEntry` keeps the index valid for the stream when `data` is the
      stream's bytes at `lp`: sorted by logical position, physically
      disjoint, and every entry still maps to the stream's bytes. */
  lemma AddEntryValid(ix: Index, lp: int, data: seq<Byte>, stream: seq<Byte>)
    requires Valid(ix, stream)
    requires |data| > 0 && 0 <= lp && lp + |data| <= |stream|
    requires data == stream[lp .. lp + |data|]
    ensures Valid(AddEntry(ix, lp, data), stream)
  {
    var es := ix.entries;
    match Place(es, lp, |data|)
    case ExtendAt(i) =>
      ExtendValid(ix, stream, i, data);
    case CloseAndAppend(i, ceiling) =>
      if !IsOut(es[i], |data|) {
        var j :| 0 <= j < |es| && Collides(es[i], |data|, es[j])
                 && ceiling == es[j].physicalPos - es[i].physicalPos;
        ApartAt(es, i, j);
      }
      CloseValid(ix, stream, i, ceiling);
      AppendNewValid(es[i := Close(es[i], ceiling)], ix.file, lp, data, stream);
    case Append =>
      AppendNewValid(es, ix.file, lp, data, stream);
  }

  // ---------------------------------------------------------------------
  // Reading bytes back through the index

  /** The cached byte at logical position `p`, found the way `read` finds
      it: through the first entry containing `p`. */
  function ByteAt(ix: Index, p: int): (r: Option<Byte>)
    ensures r.Some? ==> FindContaining(ix.entries, p).Some?
  {
    match FindContaining(ix.entries, p)
    case None => None
    case Some(i) =>
      var q := ix.entries[i].physicalPos + (p - ix.entries[i].logicalPos);
      if q < |ix.file| then Some(ix.file[q]) else None
  }

  /** A valid index serves the stream's own byte at every cached position. */
  lemma ValidServesStream(ix: Index, stream: seq<Byte>, p: int)
    requires Valid(ix, stream)
    requires FindContaining(ix.entries, p).Some?
    ensures 0 <= p < |stream| && ByteAt(ix, p) == Some(stream[p])
  {
    var i := FindContaining(ix.entries, p).value;
    HoldsAt(ix.file, stream, ix.entries[i], p - ix.entries[i].logicalPos);
  }

  /** After `addEntry`, every position of the new bytes is cached. */
  lemma AddEntryCovers(ix: Index, lp: int, data: seq<Byte>, p: int)
    requires lp <= p < lp + |data|
    ensures FindContaining(AddEntry(ix, lp, data).entries, p).Some?
  {
    var r := AddEntry(ix, lp, data);
    match Place(ix.entries, lp, |data|)
    case ExtendAt(i) =>
      assert r.entries[i].Covers(p);
    case CloseAndAppend(i, ceiling) =>
      var k :| 0 <= k < |r.entries| && r.entries[k] == NewEntry(lp, |ix.file|, |data|, None);
      assert r.entries[k].Covers(p);
    case Append =>
      var k :| 0 <= k < |r.entries| && r.entries[k] == NewEntry(lp, |ix.file|, |data|, None);
      assert r.entries[k].Covers(p);
  }

  /** Round trip: bytes indexed by `addEntry` read back as the same bytes. */
  lemma AddEntryReadBack(ix: Index, lp: int, data: seq<Byte>, stream: seq<Byte>, p: int)
    requires Valid(ix, stream)
    requires |data| > 0 && 0 <= lp && lp + |data| <= |stream|
    requires data == stream[lp .. lp + |data|]
    requires lp <= p < lp + |data|
    ensures ByteAt(AddEntry(ix, lp, data), p) == Some(data[p - lp])
  {
    AddEntryValid(ix, lp, data, stream);
    AddEntryCovers(ix, lp, data, p);
    ValidServesStream(AddEntry(ix, lp, data), stream, p);
  }
}

=== FILE: dual_budget.dfy ===
/** The dual-budget prefetch policy of `LimitPreLoadIOContext`: `more` keeps
    two separate byte budgets, one for cached bytes ahead of the consumer
    and one for bytes already watched. Over budget it reclaims the slot of
    the entry furthest ahead (only if that lies beyond the network
    position) or, for the watched budget, of the logically first entry, and
    refills that slot with at most as many bytes as it held. */
module DualBudget {
  import opened Basics
  import opened CacheEntries
  import opened CacheIndex
  import opened CacheEngine
  import opened PreLoad

  /** The defaults of the convenience initialiser. */
  const DefaultMaxFileSize: nat := 1024 * 1024 * 1024
  const DefaultMaxReadFileSize: nat := 128 * 1024 * 1024
  const DefaultBufferSize: nat := 256 * 1024

  // ---------------------------------------------------------------------
  // The two budgets

  /** Bytes in entries that start after the consumer position `lp`. */
  function AheadBytes(es: seq<Entry>, lp: int): nat
  {
    if |es| == 0 then 0
    else (if es[0].logicalPos > lp then es[0].size else 0) + AheadBytes(es[1..], lp)
  }

  /** Bytes in entries that start at or before the consumer position `lp`. */
  function WatchedBytes(es: seq<Entry>, lp: int): nat
  {
    if |es| == 0 then 0
    else (if es[0].logicalPos <= lp then es[0].size else 0) + WatchedBytes(es[1..], lp)
  }

  /** All bytes the index holds. */
  function StoredBytes(es: seq<Entry>): nat
  {
    if |es| == 0 then 0 else es[0].size + StoredBytes(es[1..])
  }

  /** The two budgets split the stored bytes between them. */
  lemma {:induction false} BudgetsPartition(es: seq<Entry>, lp: int)
    ensures AheadBytes(es, lp) + WatchedBytes(es, lp) == StoredBytes(es)
  {
    if |es| > 0 {
      BudgetsPartition(es[1..], lp);
    }
  }

  /** In a sorted list nothing is watched when the first entry starts
      after the consumer: watched bytes always include the first entry. */
  lemma {:induction false} WatchedStartsFirst(es: seq<Entry>, lp: int)
    requires Sorted(es)
    ensures (|es| == 0 || es[0].logicalPos > lp) ==> WatchedBytes(es, lp) == 0
  {
    if |es| > 0 && es[0].logicalPos > lp {
      if |es| > 1 {
        assert Sorted(es[1..]);
        assert es[0].logicalPos <= es[1].logicalPos;
        WatchedStartsFirst(es[1..], lp);
      }
    }
  }

  /** In a sorted list nothing is ahead when the last entry starts at or
      before the consumer. */
  lemma {:induction false} AheadEndsLast(es: seq<Entry>, lp: int)
    requires Sorted(es)
    ensures (|es| == 0 || es[|es| - 1].logicalPos <= lp) ==> AheadBytes(es, lp) == 0
  {
    if |es| > 0 && es[|es| - 1].logicalPos <= lp {
      assert es[0].logicalPos <= es[|es| - 1].logicalPos;
      if |es| > 1 {
        assert Sorted(es[1..]);
        assert es[1..][|es| - 2] == es[|es| - 1];
        AheadEndsLast(es[1..], lp);
      }
    }
  }

  // ---------------------------------------------------------------------
  // Choosing where the fetched bytes go

  /** Where `more` will store what it fetches: through `addEntry`, into a
      reclaimed slot (the remaining entries, the emptied slot, the clamped
      request), or nowhere because the ahead budget is spent. */
  datatype Plan =
    | Plain(size: nat)
    | Reclaim(rest: seq<Entry>, victim: Entry, slot: Entry, size: nat)
    | Full

  /** The slot a reclaimed entry leaves for new bytes at `lp`: its physical
      offset and its whole capacity, empty. */
  function EmptySlot(victim: Entry, lp: int): (e: Entry)
    ensures e.logicalPos == lp && e.physicalPos == victim.physicalPos && e.size == 0
    ensures e.Capacity() == victim.Capacity() && !e.eof
  {
    NewEntry(lp, victim.physicalPos, 0, Some(victim.Capacity()))
  }

  /** `more` fills the entry that ends at `urlPos` when there is one and it
      still takes `size` bytes. */
  predicate Fills(es: seq<Entry>, urlPos: int, size: nat)
  {
    FindAbutting(es, urlPos).Some? && !IsOut(es[FindAbutting(es, urlPos).value], size)
  }

  /** The branch logic of `more` after the request was cut by `MoreSize`. */
  function PlanFetch(s: Engine, maxFileSize: nat, maxReadFileSize: nat, size: nat): (p: Plan)
    ensures p.Plain? || p.Reclaim? ==> p.size <= size
    ensures (FindAbutting(s.index.entries, s.urlPos).Some?
             && !IsOut(s.index.entries[FindAbutting(s.index.entries, s.urlPos).value], size)) ==> p == Plain(size)
    ensures p.Reclaim? ==>
              && |p.rest| + 1 == |s.index.entries|
              && p.slot == EmptySlot(p.victim, s.urlPos)
              && p.size == Min(size, p.victim.size)
              && (p.rest == s.index.entries[1..] || p.rest == s.index.entries[..|p.rest|])
    ensures p.Full? ==> AheadBytes(s.index.entries, s.logicalPos) > maxFileSize
  {
    var es := s.index.entries;
    var fill := FindAbutting(es, s.urlPos);
    if fill.Some? && !IsOut(es[fill.value], size) then
      var e := es[fill.value];
      Plain(if e.maxSize.Some? && e.maxSize.value > e.size then Min(size, e.maxSize.value - e.size) else size)
    else if AheadBytes(es, s.logicalPos) > maxFileSize then
      if |es| > 0 && es[|es| - 1].logicalPos > s.urlPos then
        var v := es[|es| - 1];
        Reclaim(es[..|es| - 1], v, EmptySlot(v, s.urlPos), Min(size, v.size))
      else Full
    else if WatchedBytes(es, s.logicalPos) > maxReadFileSize then
      var v := es[0];
      Reclaim(es[1..], v, EmptySlot(v, s.urlPos), Min(size, v.size))
    else Plain(size)
  }

  /** How many bytes `more` asks the network for. */
  function FetchSize(s: Engine, maxFileSize: nat, maxReadFileSize: nat, bufferSize: nat): nat
  {
    match PlanFetch(s, maxFileSize, maxReadFileSize, MoreSize(s, bufferSize))
    case Plain(n) => n
    case Reclaim(_, _, _, n) => n
    case Full => 0
  }

  /** Filling a reclaimed slot: the bytes go to its physical offset and the
      filled entry joins the list in logical order. */
  function Refill(ix: Index, slot: Entry, data: seq<Byte>): (r: Index)
    ensures |r.entries| == |ix.entries| + 1
    ensures Sorted(ix.entries) ==> Sorted(r.entries)
  {
    Index(InsertSorted(ix.entries, Grow(slot, |data|)), WriteAt(ix.file, slot.physicalPos, data))
  }

  // ---------------------------------------------------------------------
  // more

  /** The state the answer meets: the victim (if any) removed, and the
      entries' eof flags reset when a non-empty request hit the end. */
  function Prepare(s: Engine, plan: Plan, code: int): (r: Engine)
    requires !plan.Full?
    ensures r.logicalPos == s.logicalPos && r.urlPos == s.urlPos && r.end == s.end
    ensures r.fakeUrlPos == s.fakeUrlPos && r.judgeEof == s.judgeEof && r.connected == s.connected
    ensures r.index.file == s.index.file
    ensures SameRanges(if plan.Reclaim? then plan.rest else s.index.entries, r.index.entries)
  {
    var s1 := if plan.Reclaim? then s.(index := s.index.(entries := plan.rest)) else s;
    var s2 := if code == AvErrorEof && plan.size > 0 && s.judgeEof then SetEof(s1, true) else s1;
    assert SameRanges(s1.index.entries, s2.index.entries);
    s2
  }

  /** The fetch-and-store step of `more` once a plan other than `Full` is
      chosen: the victim (if any) is already gone when the answer comes. */
  function Store(s: Engine, plan: Plan, reply: NetRead): (o: MoreOutcome)
    requires !plan.Full? && reply.Fits(plan.size)
    ensures o.engine.logicalPos == s.logicalPos && o.engine.judgeEof == s.judgeEof
    ensures o.engine.connected == s.connected && o.engine.end >= s.end
    ensures o.result == reply.Code()
    ensures o.result > 0 ==> o.engine.urlPos == s.urlPos + o.result && o.engine.fakeUrlPos == o.engine.urlPos
    ensures o.result <= 0 ==> o.engine.urlPos == s.urlPos && o.engine.index.file == s.index.file
    ensures plan.Reclaim? && o.result > 0 ==> |o.engine.index.entries| == |plan.rest| + 1
    ensures plan.Reclaim? && o.result <= 0 ==> SameRanges(plan.rest, o.engine.index.entries)
    ensures plan.Plain? && o.result <= 0 ==> SameRanges(s.index.entries, o.engine.index.entries)
    ensures plan.Plain? && o.result > 0 ==> o.engine.index == AddEntry(s.index, s.urlPos, reply.bytes)
    ensures plan.Reclaim? && o.result > 0 ==> o.engine.index == Refill(Index(plan.rest, s.index.file), plan.slot, reply.bytes)
  {
    var s2 := Prepare(s, plan, reply.Code());
    if reply.Code() <= 0 then MoreOutcome(s2, reply.Code())
    else
      var ix := if plan.Reclaim? then Refill(s2.index, plan.slot, reply.bytes)
                else AddEntry(s2.index, s2.urlPos, reply.bytes);
      MoreOutcome(SetUrlPos(s2.(index := ix), s2.urlPos + |reply.bytes|), |reply.bytes|)
  }

  /** `more()` of `LimitPreLoadIOContext`. The first two steps are those of
      `PreLoad.More`; then the plan decides where the bytes go. A reclaimed
      entry stays removed even when the fetch then fails. */
  function LimitMore(s: Engine, maxFileSize: nat, maxReadFileSize: nat, bufferSize: nat,
                     seekReply: int, reply: NetRead): (o: MoreOutcome)
    requires reply.Fits(FetchSize(s, maxFileSize, maxReadFileSize, bufferSize))
    ensures o.engine.logicalPos == s.logicalPos && o.engine.judgeEof == s.judgeEof
    ensures o.engine.connected == s.connected && o.engine.end >= s.end
    ensures o.result <= bufferSize || o.result == 1
    ensures FindUrlPos(s).Some? ==>
              && o.result == 1 && o.engine.index == s.index
              && (seekReply >= 0 ==> o.engine.urlPos == seekReply)
              && (seekReply < 0 ==> o.engine == s)
    ensures FindUrlPos(s).None? && s.eof && s.urlPos == s.end ==> o == MoreOutcome(s, -1)
    ensures FindUrlPos(s).None? && !(s.eof && s.urlPos == s.end) ==>
              var plan := PlanFetch(s, maxFileSize, maxReadFileSize, MoreSize(s, bufferSize));
              && (plan.Full? ==> o == MoreOutcome(s, 0))
              && (!plan.Full? ==> o.result == reply.Code())
              && (o.result > 0 ==> o.engine.urlPos == s.urlPos + o.result && o.engine.fakeUrlPos == o.engine.urlPos)
              && (o.result <= 0 ==> o.engine.urlPos == s.urlPos && o.engine.index.file == s.index.file)
              && (plan.Reclaim? && o.result > 0 ==> |o.engine.index.entries| == |s.index.entries|)
              && (plan.Reclaim? && o.result <= 0 ==> |o.engine.index.entries| + 1 == |s.index.entries|)
              && (plan.Plain? && o.result <= 0 ==> SameRanges(s.index.entries, o.engine.index.entries))
  {
    match FindUrlPos(s)
    case Some(_) =>
      MoreOutcome(if seekReply >= 0 then SetUrlPos(s, seekReply) else s, 1)
    case None =>
      if s.eof && s.urlPos == s.end then MoreOutcome(s, -1)
      else
        var plan := PlanFetch(s, maxFileSize, maxReadFileSize, MoreSize(s, bufferSize));
        if plan.Full? then MoreOutcome(s, 0)
        else Store(s, plan, reply)
  }

  // ---------------------------------------------------------------------
  // Properties

  /** The victim of a reclaim: on the ahead budget the entry furthest
      ahead, and beyond the network position; on the watched budget the
      logically first entry, one the consumer has already reached. The
      refill never asks for more bytes than the victim held. */
  lemma ReclaimVictim(s: Engine, maxFileSize: nat, maxReadFileSize: nat, size: nat)
    requires Sorted(s.index.entries)
    requires PlanFetch(s, maxFileSize, maxReadFileSize, size).Reclaim?
    ensures var p := PlanFetch(s, maxFileSize, maxReadFileSize, size);
            var es := s.index.entries;
            && p.size <= p.victim.size
            && (AheadBytes(es, s.logicalPos) > maxFileSize ==>
                  && p.victim == es[|es| - 1] && p.victim.logicalPos > s.urlPos
                  && forall k :: 0 <= k < |es| ==> es[k].logicalPos <= p.victim.logicalPos)
            && (AheadBytes(es, s.logicalPos) <= maxFileSize ==>
                  p.victim == es[0] && p.victim.logicalPos <= s.logicalPos)
  {
    WatchedStartsFirst(s.index.entries, s.logicalPos);
  }

  /** Refilling the slot of an entry removed from a valid index keeps it
      valid: the new bytes stay inside the victim's old physical range,
      which no remaining entry uses. */
  lemma RefillValid(rest: seq<Entry>, file: seq<Byte>, victim: Entry, lp: int, data: seq<Byte>, stream: seq<Byte>)
    requires Valid(Index(rest, file), stream)
    requires Good(file, stream, victim)
    requires forall k :: 0 <= k < |rest| ==> Apart(rest[k], victim)
    requires 0 < |data| <= victim.size
    requires 0 <= lp && lp + |data| <= |stream| && data == stream[lp .. lp + |data|]
    ensures Valid(Refill(Index(rest, file), EmptySlot(victim, lp), data), stream)
  {
    var slot := EmptySlot(victim, lp);
    var e := Grow(slot, |data|);
    var file' := WriteAt(file, slot.physicalPos, data);
    forall k | 0 <= k < |rest|
      ensures Apart(rest[k], e) && Good(file', stream, rest[k])
    {
      assert Apart(rest[k], victim);
      assert Good(file, stream, rest[k]);
      WriteAtFrame(file, slot.physicalPos, data, rest[k].physicalPos, rest[k].PhysicalEnd());
    }
    assert file'[e.physicalPos .. e.PhysicalEnd()] == data;
    assert Good(file', stream, e);
    InsertKeepsGood(rest, e, file', stream);
    InsertKeepsDisjoint(rest, e);
  }

  /** The plan's view of a valid index: what remains after a reclaim is
      valid and physically apart from the victim, which was a good entry. */
  lemma PlanKeepsValid(s: Engine, maxFileSize: nat, maxReadFileSize: nat, size: nat, stream: seq<Byte>)
    requires Valid(s.index, stream)
    requires PlanFetch(s, maxFileSize, maxReadFileSize, size).Reclaim?
    ensures var p := PlanFetch(s, maxFileSize, maxReadFileSize, size);
            && Valid(Index(p.rest, s.index.file), stream)
            && Good(s.index.file, stream, p.victim)
            && forall k :: 0 <= k < |p.rest| ==> Apart(p.rest[k], p.victim)
  {
    var p := PlanFetch(s, maxFileSize, maxReadFileSize, size);
    var es := s.index.entries;
    if p.rest == es[1..] && p.victim == es[0] {
      SuffixValid(s.index, stream, 1);
      forall k | 0 <= k < |p.rest|
        ensures Apart(p.rest[k], p.victim)
      {
        ApartAt(es, k + 1, 0);
      }
    } else {
      assert p.rest == es[..|es| - 1] && p.victim == es[|es| - 1];
      PrefixValid(s.index, stream, |es| - 1);
      forall k | 0 <= k < |p.rest|
        ensures Apart(p.rest[k], p.victim)
      {
        ApartAt(es, k, |es| - 1);
      }
    }
  }

  /** The store step keeps a valid index valid when the plan came from
      that index and the network is honest at `urlPos`. */
  lemma StoreKeepsValid(s: Engine, maxFileSize: nat, maxReadFileSize: nat, size: nat,
                        reply: NetRead, stream: seq<Byte>)
    requires Valid(s.index, stream)
    requires !PlanFetch(s, maxFileSize, maxReadFileSize, size).Full?
    requires reply.Fits(PlanFetch(s, maxFileSize, maxReadFileSize, size).size)
    requires HonestRead(reply, stream, s.urlPos)
    ensures Valid(Store(s, PlanFetch(s, maxFileSize, maxReadFileSize, size), reply).engine.index, stream)
  {
    var plan := PlanFetch(s, maxFileSize, maxReadFileSize, size);
    var s2 := Prepare(s, plan, reply.Code());
    if plan.Reclaim? {
      PlanKeepsValid(s, maxFileSize, maxReadFileSize, size, stream);
      ReclaimVictim(s, maxFileSize, maxReadFileSize, size);
      RefillAfterEof(Index(plan.rest, s.index.file), s2, plan.victim, reply, stream);
    } else {
      SameRangesValid(s.index, s2.index, stream);
      if reply.Code() > 0 {
        AddEntryValid(s2.index, s2.urlPos, reply.bytes, stream);
      }
    }
  }

  /** With the network honest at `urlPos`, the dual-budget `more` keeps the
      index valid on every path. */
  lemma LimitMoreKeepsValid(s: Engine, maxFileSize: nat, maxReadFileSize: nat, bufferSize: nat,
                            seekReply: int, reply: NetRead, stream: seq<Byte>)
    requires reply.Fits(FetchSize(s, maxFileSize, maxReadFileSize, bufferSize))
    requires Valid(s.index, stream)
    requires HonestRead(reply, stream, s.urlPos)
    ensures Valid(LimitMore(s, maxFileSize, maxReadFileSize, bufferSize, seekReply, reply).engine.index, stream)
  {
    if FindUrlPos(s).None? && !(s.eof && s.urlPos == s.end) {
      var plan := PlanFetch(s, maxFileSize, maxReadFileSize, MoreSize(s, bufferSize));
      if !plan.Full? {
        StoreKeepsValid(s, maxFileSize, maxReadFileSize, MoreSize(s, bufferSize), reply, stream);
      }
    }
  }

  /** The budget rules of `more` when no entry is being filled: over the
      ahead budget it reclaims the last entry if that starts beyond the
      network position and otherwise fetches nothing; within it, over the
      watched budget it reclaims the first entry; within both it fetches
      the whole cut request through `addEntry`. A reclaim asks for at most
      the victim's size. */
  lemma PlanFetchBudgets(s: Engine, maxFileSize: nat, maxReadFileSize: nat, size: nat)
    ensures var es := s.index.entries;
            var p := PlanFetch(s, maxFileSize, maxReadFileSize, size);
            !Fills(es, s.urlPos, size) && AheadBytes(es, s.logicalPos) > maxFileSize ==>
              if |es| > 0 && es[|es| - 1].logicalPos > s.urlPos then
                var v := es[|es| - 1];
                p == Reclaim(es[..|es| - 1], v, EmptySlot(v, s.urlPos), Min(size, v.size))
              else p.Full?
    ensures var es := s.index.entries;
            var p := PlanFetch(s, maxFileSize, maxReadFileSize, size);
            !Fills(es, s.urlPos, size) && AheadBytes(es, s.logicalPos) <= maxFileSize
            && WatchedBytes(es, s.logicalPos) > maxReadFileSize ==>
              && |es| > 0
              && p == Reclaim(es[1..], es[0], EmptySlot(es[0], s.urlPos), Min(size, es[0].size))
    ensures var es := s.index.entries;
            !Fills(es, s.urlPos, size) && AheadBytes(es, s.logicalPos) <= maxFileSize
            && WatchedBytes(es, s.logicalPos) <= maxReadFileSize ==>
              PlanFetch(s, maxFileSize, maxReadFileSize, size) == Plain(size)
  {
  }

  /** A fetch that delivers bytes is indexed at the old `urlPos`: through
      `addEntry` on a plain plan, into the emptied slot of the victim on a
      reclaim. */
  lemma LimitMoreStores(s: Engine, maxFileSize: nat, maxReadFileSize: nat, bufferSize: nat,
                        seekReply: int, reply: NetRead)
    requires reply.Fits(FetchSize(s, maxFileSize, maxReadFileSize, bufferSize))
    requires FindUrlPos(s).None? && !(s.eof && s.urlPos == s.end)
    requires reply.Data?
    ensures var plan := PlanFetch(s, maxFileSize, maxReadFileSize, MoreSize(s, bufferSize));
            var t := LimitMore(s, maxFileSize, maxReadFileSize, bufferSize, seekReply, reply).engine;
            && !plan.Full? && |reply.bytes| <= plan.size
            && (plan.Plain? ==> t.index == AddEntry(s.index, s.urlPos, reply.bytes))
            && (plan.Reclaim? ==> t.index == Refill(Index(plan.rest, s.index.file), plan.slot, reply.bytes))
  {
  }

  /** With the network honest at `urlPos`, a successful dual-budget fetch
      leaves every fetched position cached, readable as the stream's own
      bytes, whichever budget rule placed it. */
  lemma LimitMoreCachesFetched(s: Engine, maxFileSize: nat, maxReadFileSize: nat, bufferSize: nat,
                               seekReply: int, reply: NetRead, stream: seq<Byte>, p: int)
    requires reply.Fits(FetchSize(s, maxFileSize, maxReadFileSize, bufferSize))
    requires Valid(s.index, stream)
    requires HonestRead(reply, stream, s.urlPos)
    requires FindUrlPos(s).None? && !(s.eof && s.urlPos == s.end)
    requires reply.Data? && s.urlPos <= p < s.urlPos + |reply.bytes|
    ensures var t := LimitMore(s, maxFileSize, maxReadFileSize, bufferSize, seekReply, reply).engine;
            0 <= p < |stream| && ByteAt(t.index, p) == Some(stream[p])
  {
    var size := MoreSize(s, bufferSize);
    var plan := PlanFetch(s, maxFileSize, maxReadFileSize, size);
    assert plan.Full? ==> FetchSize(s, maxFileSize, maxReadFileSize, bufferSize) == 0;
    assert !plan.Full? && |reply.bytes| <= plan.size;
    if plan.Plain? {
      FetchedReadBack(s.index, s.urlPos, reply.bytes, stream, p);
    } else {
      PlanReadBack(s, maxFileSize, maxReadFileSize, size, reply.bytes, stream, p);
    }
    LimitMoreStores(s, maxFileSize, maxReadFileSize, bufferSize, seekReply, reply);
  }

  /** Honest bytes refilled into a reclaimed slot read back as the
      stream's bytes. */
  lemma PlanReadBack(s: Engine, maxFileSize: nat, maxReadFileSize: nat, size: nat,
                     data: seq<Byte>, stream: seq<Byte>, p: int)
    requires Valid(s.index, stream)
    requires PlanFetch(s, maxFileSize, maxReadFileSize, size).Reclaim?
    requires 0 < |data| <= PlanFetch(s, maxFileSize, maxReadFileSize, size).size
    requires 0 <= s.urlPos && s.urlPos + |data| <= |stream| && data == stream[s.urlPos .. s.urlPos + |data|]
    requires s.urlPos <= p < s.urlPos + |data|
    ensures var plan := PlanFetch(s, maxFileSize, maxReadFileSize, size);
            0 <= p < |stream| && ByteAt(Refill(Index(plan.rest, s.index.file), plan.slot, data), p) == Some(stream[p])
  {
    var plan := PlanFetch(s, maxFileSize, maxReadFileSize, size);
    PlanKeepsValid(s, maxFileSize, maxReadFileSize, size, stream);
    ReclaimVictim(s, maxFileSize, maxReadFileSize, size);
    SlotReadBack(plan.rest, s.index.file, plan.victim, plan.slot, s.urlPos, data, stream, p);
  }

  /** Honest bytes refilled into the emptied slot of a good victim that no
      remaining entry overlaps read back as the stream's bytes. */
  lemma SlotReadBack(rest: seq<Entry>, file: seq<Byte>, victim: Entry, slot: Entry, lp: int,
                     data: seq<Byte>, stream: seq<Byte>, p: int)
    requires Valid(Index(rest, file), stream)
    requires Good(file, stream, victim)
    requires forall k :: 0 <= k < |rest| ==> Apart(rest[k], victim)
    requires slot == EmptySlot(victim, lp) && 0 < |data| <= victim.size
    requires 0 <= lp && lp + |data| <= |stream| && data == stream[lp .. lp + |data|]
    requires lp <= p < lp + |data|
    ensures 0 <= p < |stream| && ByteAt(Refill(Index(rest, file), slot, data), p) == Some(stream[p])
  {
    RefillReadBack(rest, file, victim, lp, data, stream, p);
    assert data[p - lp] == stream[p];
  }

  /** A sub-stream's dual-budget `more` never sets the eof flag. */
  lemma SubStreamLimitMoreKeepsEof(s: Engine, maxFileSize: nat, maxReadFileSize: nat, bufferSize: nat,
                                   seekReply: int, reply: NetRead)
    requires reply.Fits(FetchSize(s, maxFileSize, maxReadFileSize, bufferSize))
    requires !s.judgeEof
    ensures var t := LimitMore(s, maxFileSize, maxReadFileSize, bufferSize, seekReply, reply).engine;
            t.eof == s.eof && !t.judgeEof
  {
  }

  /** The refill step, on the state whose eof flags were possibly reset. */
  lemma RefillAfterEof(ix: Index, s2: Engine, victim: Entry, reply: NetRead, stream: seq<Byte>)
    requires Valid(ix, stream) && Good(ix.file, stream, victim)
    requires forall k :: 0 <= k < |ix.entries| ==> Apart(ix.entries[k], victim)
    requires SameRanges(ix.entries, s2.index.entries) && s2.index.file == ix.file
    requires reply.Data? ==> 0 < |reply.bytes| <= victim.size
    requires HonestRead(reply, stream, s2.urlPos)
    ensures Valid(s2.index, stream)
    ensures reply.Data? ==> Valid(Refill(s2.index, EmptySlot(victim, s2.urlPos), reply.bytes), stream)
  {
    SameRangesValid(ix, s2.index, stream);
    if reply.Data? {
      forall k | 0 <= k < |s2.index.entries|
        ensures Apart(s2.index.entries[k], victim)
      {
        assert Apart(ix.entries[k], victim);
      }
      RefillValid(s2.index.entries, s2.index.file, victim, s2.urlPos, reply.bytes, stream);
    }
  }

  /** A refill lands in the victim's old physical range and holds exactly
      the fetched bytes at `urlPos`, so they read back unchanged. */
  lemma RefillReadBack(rest: seq<Entry>, file: seq<Byte>, victim: Entry, lp: int, data: seq<Byte>, stream: seq<Byte>, p: int)
    requires Valid(Index(rest, file), stream)
    requires Good(file, stream, victim)
    requires forall k :: 0 <= k < |rest| ==> Apart(rest[k], victim)
    requires 0 < |data| <= victim.size
    requires 0 <= lp && lp + |data| <= |stream| && data == stream[lp .. lp + |data|]
    requires lp <= p < lp + |data|
    ensures ByteAt(Refill(Index(rest, file), EmptySlot(victim, lp), data), p) == Some(data[p - lp])
  {
    var r := Refill(Index(rest, file), EmptySlot(victim, lp), data);
    RefillValid(rest, file, victim, lp, data, stream);
    var e := Grow(EmptySlot(victim, lp), |data|);
    assert e in multiset(r.entries);
    var k :| 0 <= k < |r.entries| && r.entries[k] == e;
    assert r.entries[k].Covers(p);
    ValidServesStream(r, stream, p);
  }
}

=== FILE: preload.dfy ===
/** The prefetching engine (`PreLoadIOContext`): the cache engine plus a
    `more` operation that fetches ahead of the consumer at `urlPos`, and a
    progress marker `fakeUrlPos` from which `loadedSize` is derived.

    `more` stores through the base `addEntry`; the network answers are
    oracle parameters exactly as in `CacheEngine`. */
module PreLoad {
  import opened Basics
  import opened CacheEntries
  import opened CacheIndex
  import opened CacheEngine

  /** `loadedSize`: how far the prefetch marker is ahead of the consumer. */
  function LoadedSize(s: Engine): int
  {
    s.fakeUrlPos - s.logicalPos
  }

  /** A new instance, main or sub-stream, starts with the cache invariant
      holding for any stream, nothing preloaded and no cached run to skip. */
  lemma FreshInv(policy: Policy, connected: bool, stream: seq<Byte>)
    ensures var s := Fresh(connected);
            && Inv(policy, s.index, stream) && LoadedSize(s) == 0 && FindUrlPos(s).None?
    ensures var s := SubStream(connected);
            && Inv(policy, s.index, stream) && LoadedSize(s) == 0 && FindUrlPos(s).None?
  {
    EmptyInv(policy, Fresh(connected), stream);
    EmptyInv(policy, SubStream(connected), stream);
  }

  /** An engine with no entries satisfies the invariant and has no cached
      run at its position. */
  lemma EmptyInv(policy: Policy, s: Engine, stream: seq<Byte>)
    requires s.index.entries == []
    ensures Inv(policy, s.index, stream) && FindUrlPos(s).None?
  {
    assert FindContaining(s.index.entries, s.logicalPos).None?;
  }

  // ---------------------------------------------------------------------
  // findURLPos: the end of the contiguous cached run at `logicalPos`

  /** The position a chain of entries `es[i..j]`, starting at `pos`, has
      reached. */
  function ChainEnd(es: seq<Entry>, i: nat, j: nat, pos: int): int
    requires i <= j <= |es|
  {
    if j == i then pos else es[j - 1].LogicalEnd()
  }

  /** Each of `es[i..j]` starts exactly where the chain has reached. */
  ghost predicate Chained(es: seq<Entry>, i: nat, j: nat, pos: int)
    requires i <= j <= |es|
  {
    forall k :: i <= k < j ==> es[k].logicalPos == ChainEnd(es, i, k, pos)
  }

  /** The loop of `findURLPos`: from index `i`, take entries while each
      starts where the previous one ended; the index where it stops. */
  function RunStop(es: seq<Entry>, i: nat, pos: int): (j: nat)
    requires i <= |es|
    ensures i <= j <= |es|
    ensures Chained(es, i, j, pos)
    ensures j < |es| ==> es[j].logicalPos != ChainEnd(es, i, j, pos)
    decreases |es| - i
  {
    if i < |es| && es[i].logicalPos == pos then
      var j := RunStop(es, i + 1, es[i].LogicalEnd());
      assert forall k :: i + 1 <= k <= j ==> ChainEnd(es, i + 1, k, es[i].LogicalEnd()) == ChainEnd(es, i, k, pos);
      j
    else i
  }

  /** The end of the cached run that contains `logicalPos`, if it does. */
  function RunEnd(s: Engine): (r: Option<int>)
    ensures r.Some? <==> FindContaining(s.index.entries, s.logicalPos).Some?
    ensures r.Some? ==> r.value > s.logicalPos
  {
    var es := s.index.entries;
    match FindContaining(es, s.logicalPos)
    case None => None
    case Some(i) =>
      var j := RunStop(es, i + 1, es[i].LogicalEnd());
      assert es[i].LogicalEnd() <= ChainEnd(es, i + 1, j, es[i].LogicalEnd()) by {
        if j > i + 1 {
          assert es[j - 1].logicalPos == ChainEnd(es, i + 1, j - 1, es[i].LogicalEnd());
          ChainGrows(es, i + 1, j - 1, es[i].LogicalEnd());
        }
      }
      Some(ChainEnd(es, i + 1, j, es[i].LogicalEnd()))
  }

  /** A chain never moves backwards. */
  lemma {:induction false} ChainGrows(es: seq<Entry>, i: nat, j: nat, pos: int)
    requires i <= j <= |es| && Chained(es, i, j, pos)
    ensures pos <= ChainEnd(es, i, j, pos)
    decreases j - i
  {
    if j > i {
      ChainGrows(es, i, j - 1, pos);
      assert es[j - 1].logicalPos == ChainEnd(es, i, j - 1, pos);
    }
  }

  /** `findURLPos()`: the end of the cached run at `logicalPos`, unless the
      network already stands there. */
  function FindUrlPos(s: Engine): (r: Option<int>)
    ensures r.Some? <==> RunEnd(s).Some? && RunEnd(s).value != s.urlPos
    ensures r.Some? ==> r.value == RunEnd(s).value && r.value > s.logicalPos
  {
    match RunEnd(s)
    case None => None
    case Some(pos) => if s.urlPos == pos then None else Some(pos)
  }

  /** Every position a chain passes over is cached. */
  lemma {:induction false} ChainCovered(es: seq<Entry>, i: nat, j: nat, pos: int, p: int)
    requires i <= j <= |es| && Chained(es, i, j, pos)
    requires pos <= p < ChainEnd(es, i, j, pos)
    ensures FindContaining(es, p).Some?
    decreases j - i
  {
    assert j > i;
    if p >= es[j - 1].logicalPos {
      assert es[j - 1].Covers(p);
    } else {
      assert es[j - 1].logicalPos == ChainEnd(es, i, j - 1, pos);
      ChainCovered(es, i, j - 1, pos, p);
    }
  }

  /** The whole run from `logicalPos` up to its end is cached, so the bytes
      `loadedSize` counts after a seek into the cache are really there. */
  lemma RunIsCached(s: Engine, p: int)
    requires RunEnd(s).Some?
    requires s.logicalPos <= p < RunEnd(s).value
    ensures FindContaining(s.index.entries, p).Some?
  {
    var es := s.index.entries;
    var i := FindContaining(es, s.logicalPos).value;
    var j := RunStop(es, i + 1, es[i].LogicalEnd());
    if p >= es[i].LogicalEnd() {
      ChainCovered(es, i + 1, j, es[i].LogicalEnd(), p);
    } else {
      assert es[i].Covers(p);
    }
  }

  /** Entries that never overlap logically (a condition the source does not
      enforce, but under which the run's end is exact). */
  ghost predicate LogicallyDisjoint(es: seq<Entry>)
  {
    forall a, b :: 0 <= a < b < |es| ==> es[a].LogicalEnd() <= es[b].logicalPos
  }

  /** For sorted, logically disjoint, non-empty entries the run ends at the
      first position after `logicalPos` that is not cached. */
  lemma RunEndIsFirstGap(s: Engine)
    requires Sorted(s.index.entries) && LogicallyDisjoint(s.index.entries)
    requires forall k :: 0 <= k < |s.index.entries| ==> s.index.entries[k].size > 0
    requires RunEnd(s).Some?
    ensures FindContaining(s.index.entries, RunEnd(s).value).None?
  {
    var es := s.index.entries;
    var r := RunEnd(s).value;
    var last := RunLast(s);
    forall k | 0 <= k < |es|
      ensures !es[k].Covers(r)
    {
      GapAt(es, last, k, r);
    }
  }

  /** The run ends with the entry `last`, and the entry after it (if any)
      does not continue the run. */
  lemma RunLast(s: Engine) returns (last: nat)
    requires RunEnd(s).Some?
    ensures last < |s.index.entries| && RunEnd(s).value == s.index.entries[last].LogicalEnd()
    ensures last + 1 < |s.index.entries| ==> s.index.entries[last + 1].logicalPos != RunEnd(s).value
  {
    var es := s.index.entries;
    var i := FindContaining(es, s.logicalPos).value;
    var j := RunStop(es, i + 1, es[i].LogicalEnd());
    last := j - 1;
  }

  /** No entry covers the end of `es[last]` when entries are sorted,
      non-empty, logically disjoint and the next entry does not start
      there. */
  lemma GapAt(es: seq<Entry>, last: nat, k: nat, r: int)
    requires Sorted(es) && LogicallyDisjoint(es)
    requires last < |es| && k < |es| && es[k].size > 0
    requires r == es[last].LogicalEnd()
    requires last + 1 < |es| ==> es[last + 1].logicalPos != r
    ensures !es[k].Covers(r)
  {
    if k < last {
      assert es[k].LogicalEnd() <= es[last].logicalPos;
      assert es[last].logicalPos <= r;
    } else if k > last {
      assert es[last].LogicalEnd() <= es[last + 1].logicalPos;
      assert es[last + 1].logicalPos <= es[k].logicalPos;
    }
  }

  // ---------------------------------------------------------------------
  // seek

  /** `seek(offset:whence:)` of the prefetching engine: the progress marker
      first drops to `logicalPos`; after a seek that lands in the cache
      away from the network position it jumps to the end of the cached run
      there, without any network seek. */
  function PreLoadSeek(s: Engine, offset: int, whence: Whence, netReply: int): (o: SeekOutcome)
    ensures o.engine.index == s.index && o.engine.eof == s.eof
    ensures o.result < 0 ==> o.engine == s.(fakeUrlPos := s.logicalPos) && LoadedSize(o.engine) == 0
    ensures o.result >= 0 ==> o.engine.logicalPos == o.result
    ensures o.result > 0 && o.engine.logicalPos != o.engine.urlPos ==>
              && o.engine.urlPos == s.urlPos
              && RunEnd(o.engine).Some?
              && o.engine.fakeUrlPos == RunEnd(o.engine).value
              && LoadedSize(o.engine) > 0
    ensures o.engine.urlPos != s.urlPos ==> o.engine.logicalPos == o.engine.urlPos == o.engine.fakeUrlPos
  {
    var s0 := s.(fakeUrlPos := s.logicalPos);
    var o := Seek(s0, offset, whence, netReply);
    SeekApartIsCached(s0, offset, whence, netReply);
    if o.result > 0 && o.engine.logicalPos != o.engine.urlPos then
      var marker := FindUrlPos(o.engine).GetOr(o.engine.urlPos);
      RunEndIgnoresMarker(o.engine, marker);
      SeekOutcome(o.engine.(fakeUrlPos := marker), o.result)
    else o
  }

  /** The cached run does not depend on the progress marker. */
  lemma RunEndIgnoresMarker(s: Engine, marker: int)
    ensures RunEnd(s.(fakeUrlPos := marker)) == RunEnd(s)
  {
  }

  /** After a seek of the prefetching engine that lands at a positive
      position away from the network position, `loadedSize` counts only
      cached bytes ahead of the consumer; after a network seek it is zero.
      A seek into the cache that lands on 0 is not covered by the source's
      `result > 0` test and leaves the marker at the old consumer position. */
  lemma PreLoadSeekLoadedIsCached(s: Engine, offset: int, whence: Whence, netReply: int, p: int)
    ensures var o := PreLoadSeek(s, offset, whence, netReply);
            var t := o.engine;
            o.result > 0 && t.logicalPos != t.urlPos && t.logicalPos <= p < t.fakeUrlPos ==>
              FindContaining(t.index.entries, p).Some?
    ensures var o := PreLoadSeek(s, offset, whence, netReply);
            o.result >= 0 && o.engine.urlPos != s.urlPos ==> LoadedSize(o.engine) == 0
    ensures var o := PreLoadSeek(s, offset, whence, netReply);
            o.result == 0 && o.engine.logicalPos != o.engine.urlPos ==> o.engine.fakeUrlPos == s.logicalPos
  {
    var o := PreLoadSeek(s, offset, whence, netReply);
    var t := o.engine;
    if o.result > 0 && t.logicalPos != t.urlPos && t.logicalPos <= p < t.fakeUrlPos {
      RunIsCached(t, p);
    }
  }

  // ---------------------------------------------------------------------
  // more

  datatype MoreOutcome = MoreOutcome(engine: Engine, result: int)

  /** The size `more` asks for: `bufferSize`, cut at the first entry (in
      list order) whose range ends after `urlPos` when that entry starts
      after `urlPos`. */
  function MoreSize(s: Engine, bufferSize: nat): (r: nat)
    ensures r <= bufferSize && (bufferSize > 0 ==> r > 0)
  {
    match FindEndingAfter(s.index.entries, s.urlPos)
    case None => bufferSize
    case Some(i) =>
      var diff := s.index.entries[i].logicalPos - s.urlPos;
      if diff > 0 then Min(bufferSize, diff) else bufferSize
  }

  /** The request of `more` is `bufferSize`, cut to the distance from
      `urlPos` to the first entry (in list order) that ends after `urlPos`
      when that entry starts after it. */
  lemma MoreSizeIsCut(s: Engine, bufferSize: nat)
    ensures var next := FindEndingAfter(s.index.entries, s.urlPos);
            if next.Some? && s.index.entries[next.value].logicalPos > s.urlPos
            then MoreSize(s, bufferSize) == Min(bufferSize, s.index.entries[next.value].logicalPos - s.urlPos)
            else MoreSize(s, bufferSize) == bufferSize
  {
  }

  /** `more()` of `PreLoadIOContext`: if a cached run continues past the
      network position, only move the network there (`seekReply` is its
      answer) and report 1; at the known end of the stream report -1;
      otherwise fetch at `urlPos` and index the bytes there. */
  function More(s: Engine, bufferSize: nat, seekReply: int, reply: NetRead): (o: MoreOutcome)
    requires reply.Fits(MoreSize(s, bufferSize))
    ensures o.engine.logicalPos == s.logicalPos && o.engine.judgeEof == s.judgeEof
    ensures o.engine.connected == s.connected && o.engine.end >= s.end
    ensures FindUrlPos(s).Some? ==>
              && o.result == 1 && o.engine.index == s.index
              && (seekReply >= 0 ==> o.engine.urlPos == seekReply)
              && (seekReply < 0 ==> o.engine == s)
    ensures FindUrlPos(s).None? && s.eof && s.urlPos == s.end ==> o == MoreOutcome(s, -1)
    ensures FindUrlPos(s).None? && !(s.eof && s.urlPos == s.end) ==>
              && o.result == reply.Code()
              && (o.result > 0 ==>
                    && o.engine.urlPos == s.urlPos + o.result
                    && o.engine.fakeUrlPos == o.engine.urlPos
                    && o.engine.index == AddEntry(s.index, s.urlPos, reply.bytes))
              && (o.result <= 0 ==>
                    && o.engine.urlPos == s.urlPos
                    && o.engine.index.file == s.index.file
                    && SameRanges(s.index.entries, o.engine.index.entries)
                    && (o.engine.eof <==> s.eof || (o.result == AvErrorEof && MoreSize(s, bufferSize) > 0 && s.judgeEof)))
  {
    match FindUrlPos(s)
    case Some(_) =>
      MoreOutcome(if seekReply >= 0 then SetUrlPos(s, seekReply) else s, 1)
    case None =>
      if s.eof && s.urlPos == s.end then MoreOutcome(s, -1)
      else
        var size := MoreSize(s, bufferSize);
        var s2 := if reply.Code() == AvErrorEof && size > 0 && s.judgeEof then SetEof(s, true) else s;
        assert SameRanges(s.index.entries, s2.index.entries);
        if reply.Code() <= 0 then MoreOutcome(s2, reply.Code())
        else
          var s3 := s2.(index := AddEntry(s2.index, s2.urlPos, reply.bytes));
          MoreOutcome(SetUrlPos(s3, s3.urlPos + |reply.bytes|), |reply.bytes|)
  }

  /** With the network honest at `urlPos`, `more` keeps the index valid. */
  lemma MoreKeepsValid(s: Engine, bufferSize: nat, seekReply: int, reply: NetRead, stream: seq<Byte>)
    requires reply.Fits(MoreSize(s, bufferSize))
    requires Valid(s.index, stream)
    requires HonestRead(reply, stream, s.urlPos)
    ensures Valid(More(s, bufferSize, seekReply, reply).engine.index, stream)
  {
    var o := More(s, bufferSize, seekReply, reply);
    if FindUrlPos(s).None? && !(s.eof && s.urlPos == s.end) {
      if reply.Code() > 0 {
        AddEntryValid(s.index, s.urlPos, reply.bytes, stream);
      } else {
        SameRangesValid(s.index, o.engine.index, stream);
      }
    }
  }

  /** A sub-stream's `more` never sets the eof flag. */
  lemma SubStreamMoreKeepsEof(s: Engine, bufferSize: nat, seekReply: int, reply: NetRead)
    requires reply.Fits(MoreSize(s, bufferSize))
    requires !s.judgeEof
    ensures var t := More(s, bufferSize, seekReply, reply).engine;
            t.eof == s.eof && !t.judgeEof
  {
  }

  /** A successful fetch leaves every fetched position cached, readable as
      the stream's own bytes. */
  lemma MoreCachesFetched(s: Engine, bufferSize: nat, seekReply: int, reply: NetRead, stream: seq<Byte>, p: int)
    requires reply.Fits(MoreSize(s, bufferSize))
    requires Valid(s.index, stream)
    requires HonestRead(reply, stream, s.urlPos)
    requires FindUrlPos(s).None? && !(s.eof && s.urlPos == s.end)
    requires reply.Data? && s.urlPos <= p < s.urlPos + |reply.bytes|
    ensures var t := More(s, bufferSize, seekReply, reply).engine;
            0 <= p < |stream| && ByteAt(t.index, p) == Some(stream[p])
  {
    MoreStoresAtUrlPos(s, bufferSize, seekReply, reply);
    FetchedReadBack(s.index, s.urlPos, reply.bytes, stream, p);
  }

  /** A fetch that delivers bytes indexes them at `urlPos`. */
  lemma MoreStoresAtUrlPos(s: Engine, bufferSize: nat, seekReply: int, reply: NetRead)
    requires reply.Fits(MoreSize(s, bufferSize))
    requires FindUrlPos(s).None? && !(s.eof && s.urlPos == s.end)
    requires reply.Data?
    ensures More(s, bufferSize, seekReply, reply).engine.index == AddEntry(s.index, s.urlPos, reply.bytes)
  {
  }

  /** Honest bytes indexed at `lp` read back as the stream's bytes. */
  lemma FetchedReadBack(ix: Index, lp: int, data: seq<Byte>, stream: seq<Byte>, p: int)
    requires Valid(ix, stream)
    requires 0 <= lp && lp + |data| <= |stream| && data == stream[lp .. lp + |data|]
    requires lp <= p < lp + |data|
    ensures 0 <= p < |stream| && ByteAt(AddEntry(ix, lp, data), p) == Some(stream[p])
  {
    AddEntryReadBack(ix, lp, data, stream, p);
    assert data[p - lp] == stream[p];
  }

  /** When `urlPos` is not itself cached, the fetch asks only for bytes
      that no entry holds yet. (When it is cached, which a read that
      served zero bytes can leave behind, the size is not cut and the
      fetched range may repeat cached bytes.) */
  lemma MoreFetchAvoidsCache(s: Engine, bufferSize: nat)
    requires Sorted(s.index.entries)
    requires FindContaining(s.index.entries, s.urlPos).None?
    ensures forall i :: 0 <= i < |s.index.entries| ==>
              s.index.entries[i].LogicalEnd() <= s.urlPos
              || s.urlPos + MoreSize(s, bufferSize) <= s.index.entries[i].logicalPos
  {
    var es := s.index.entries;
    forall i | 0 <= i < |es|
      ensures es[i].LogicalEnd() <= s.urlPos || s.urlPos + MoreSize(s, bufferSize) <= es[i].logicalPos
    {
      assert !es[i].Covers(s.urlPos);
      if es[i].LogicalEnd() > s.urlPos {
        var j := FindEndingAfter(es, s.urlPos).value;
        assert j <= i;
        assert !es[j].Covers(s.urlPos);
      }
    }
  }

  /** When the consumer stands in a cached run, `more` downloads nothing:
      an honest network seek moves `urlPos` to the end of the run, and all
      of the positions between the consumer and it are cached. */
  lemma MoreSkipsCachedRun(s: Engine, bufferSize: nat, seekReply: int, reply: NetRead, p: int)
    requires reply.Fits(MoreSize(s, bufferSize))
    requires FindUrlPos(s).Some?
    requires seekReply < 0 || seekReply == FindUrlPos(s).value
    ensures var o := More(s, bufferSize, seekReply, reply);
            && o.result == 1 && o.engine.index == s.index
            && (seekReply >= 0 ==> o.engine.urlPos == RunEnd(s).value)
    ensures s.logicalPos <= p < FindUrlPos(s).value ==> FindContaining(s.index.entries, p).Some?
  {
    if s.logicalPos <= p < FindUrlPos(s).value {
      RunIsCached(s, p);
    }
  }
}

=== FILE: ring_policy.dfy ===
/** The ring policy of `LimitCacheIOContext`: a size-capped cache of data
    already read, whose `addEntry` reuses the physical slot of the logically
    first entry instead of growing the file once the cap is reached.

    `AddEntryAsWritten` follows the source line by line; `AddEntry` is the
    corrected insertion the engine uses (see the README's findings): it
    starts reclaiming once the file itself has grown past the cap, merges a
    second slot only when that slot follows the first one in the file, and
    stores only as many bytes as the reclaimed space holds. */
module RingPolicy {
  import opened Basics
  import opened CacheEntries
  import opened CacheIndex

  /** The default cap of 1 GiB. */
  const DefaultMaxFileSize: nat := 1024 * 1024 * 1024

  /** `maxPhysicalPos`: the largest physical offset of any entry, 0 if none. */
  function MaxPhysicalPos(es: seq<Entry>): (m: nat)
    ensures forall i :: 0 <= i < |es| ==> es[i].physicalPos <= m
    ensures |es| > 0 ==> exists i :: 0 <= i < |es| && es[i].physicalPos == m
    ensures |es| == 0 ==> m == 0
  {
    if |es| == 0 then 0
    else
      var m := MaxPhysicalPos(es[1..]);
      assert forall i :: 1 <= i < |es| ==> es[i] == es[1..][i - 1];
      if es[0].physicalPos >= m then es[0].physicalPos else m
  }

  /** The in-place path: the abutting entry is the physically last one and
      its own capacity check passes. */
  predicate ExtendsInPlace(es: seq<Entry>, lp: int, n: nat)
  {
    match FindAbutting(es, lp)
    case None => false
    case Some(i) => es[i].physicalPos == MaxPhysicalPos(es) && !IsOut(es[i], n)
  }

  /** The source's trigger: reclaim once the logically last entry is closed
      or ends past the cap in the file. */
  predicate ShouldReclaim(es: seq<Entry>, maxFileSize: nat)
  {
    |es| > 0 && (es[|es| - 1].maxSize.Some? || es[|es| - 1].PhysicalEnd() > maxFileSize)
  }

  /** The corrected trigger: reclaim once the logically last entry is closed
      or the file as a whole ends past the cap. */
  predicate OverCap(ix: Index, maxFileSize: nat)
  {
    |ix.entries| > 0 && (ix.entries[|ix.entries| - 1].maxSize.Some? || |ix.file| > maxFileSize)
  }

  /** On a valid index the corrected trigger fires whenever the source's
      does: no entry ends past the end of the file. */
  lemma OverCapWhenSourceReclaims(ix: Index, maxFileSize: nat, stream: seq<Byte>)
    requires Valid(ix, stream)
    ensures ShouldReclaim(ix.entries, maxFileSize) ==> OverCap(ix, maxFileSize)
  {
    if |ix.entries| > 0 {
      assert Good(ix.file, stream, ix.entries[|ix.entries| - 1]);
    }
  }

  /** Append in place to the abutting entry. */
  function ExtendLast(ix: Index, lp: int, data: seq<Byte>): (r: Index)
    requires ExtendsInPlace(ix.entries, lp, |data|)
    ensures |r.entries| == |ix.entries|
    ensures Sorted(ix.entries) ==> Sorted(r.entries)
  {
    var es := ix.entries;
    var i := FindAbutting(es, lp).value;
    var grown := es[i := Grow(es[i], |data|)];
    assert Sorted(es) ==> Sorted(grown) by {
      if Sorted(es) {
        forall a, b | 0 <= a < b < |grown|
          ensures grown[a].logicalPos <= grown[b].logicalPos
        {
          assert es[a].logicalPos <= es[b].logicalPos;
        }
      }
    }
    Index(grown, WriteAt(ix.file, es[i].PhysicalEnd(), data))
  }

  /** A new entry of `size` bytes in a reclaimed slot at `physicalPos` whose
      ceiling is `capacity`, with `written` put into the file there. */
  function Reuse(rest: seq<Entry>, file: seq<Byte>, physicalPos: nat, capacity: nat,
                 lp: int, written: seq<Byte>): (r: Index)
    ensures NewEntry(lp, physicalPos, |written|, Some(capacity)) in r.entries
    ensures |r.entries| == |rest| + 1
  {
    var e := NewEntry(lp, physicalPos, |written|, Some(capacity));
    var es := InsertSorted(rest, e);
    assert e in multiset(es);
    Index(es, WriteAt(file, physicalPos, written))
  }

  /** A reused slot adds exactly the new entry and writes exactly `written`
      at the slot's offset. */
  lemma ReuseShape(rest: seq<Entry>, file: seq<Byte>, physicalPos: nat, capacity: nat,
                   lp: int, written: seq<Byte>)
    ensures var r := Reuse(rest, file, physicalPos, capacity, lp, written);
            && multiset(r.entries) == multiset(rest) + multiset{NewEntry(lp, physicalPos, |written|, Some(capacity))}
            && r.file == WriteAt(file, physicalPos, written)
  {
  }

  /** `LimitCacheIOContext.addEntry` as written. None stands for the trap of
      the second `removeFirst()` on a list that has become empty. */
  function AddEntryAsWritten(ix: Index, maxFileSize: nat, lp: int, data: seq<Byte>): (r: Option<Index>)
    ensures r.None? <==> !ExtendsInPlace(ix.entries, lp, |data|) && ShouldReclaim(ix.entries, maxFileSize)
                         && ix.entries[0].Capacity() < |data| && |ix.entries| < 2
  {
    var es := ix.entries;
    if ExtendsInPlace(es, lp, |data|) then Some(ExtendLast(ix, lp, data))
    else if ShouldReclaim(es, maxFileSize) then
      var first := es[0];
      if first.Capacity() < |data| then
        if |es| < 2 then None
        else Some(Reuse(es[2..], ix.file, first.physicalPos, first.Capacity() + es[1].Capacity(), lp, data))
      else Some(Reuse(es[1..], ix.file, first.physicalPos, first.Capacity(), lp, data))
    else Some(AppendNew(es, ix.file, lp, data))
  }

  /** Does the corrected policy merge the second slot into the first? */
  predicate MergesSecond(es: seq<Entry>, n: nat)
    requires |es| > 0
  {
    es[0].Capacity() < n && |es| >= 2 && es[1].physicalPos == es[0].physicalPos + es[0].Capacity()
  }

  /** The space a reclaim hands to the new entry. */
  function ReclaimedCapacity(es: seq<Entry>, n: nat): (c: nat)
    requires |es| > 0
    ensures c >= es[0].Capacity()
  {
    if MergesSecond(es, n) then es[0].Capacity() + es[1].Capacity() else es[0].Capacity()
  }

  /** The reclaim path, corrected: the first entry's slot (merged with the
      second only when that one follows it in the file) takes as many of
      the bytes as it holds. */
  function ReclaimFirst(ix: Index, lp: int, data: seq<Byte>): (r: Index)
    requires |ix.entries| > 0
    ensures |r.entries| == (if MergesSecond(ix.entries, |data|) then |ix.entries| - 1 else |ix.entries|)
    ensures |r.file| == Max(|ix.file|, ix.entries[0].physicalPos + Min(|data|, ReclaimedCapacity(ix.entries, |data|)))
    ensures NewEntry(lp, ix.entries[0].physicalPos, Min(|data|, ReclaimedCapacity(ix.entries, |data|)),
                     Some(ReclaimedCapacity(ix.entries, |data|))) in r.entries
    ensures Sorted(ix.entries) ==> Sorted(r.entries)
  {
    var es := ix.entries;
    var capacity := ReclaimedCapacity(es, |data|);
    var rest := if MergesSecond(es, |data|) then es[2..] else es[1..];
    assert Sorted(es) ==> Sorted(rest);
    var k := Min(|data|, capacity);
    Reuse(rest, ix.file, es[0].physicalPos, capacity, lp, data[..k])
  }

  /** The ring policy's `addEntry`, corrected. */
  function AddEntry(ix: Index, maxFileSize: nat, lp: int, data: seq<Byte>): (r: Index)
    ensures ExtendsInPlace(ix.entries, lp, |data|) ==> |r.entries| == |ix.entries|
    ensures !ExtendsInPlace(ix.entries, lp, |data|) && !OverCap(ix, maxFileSize) ==>
              && |r.entries| == |ix.entries| + 1
              && r.file == ix.file + data
              && NewEntry(lp, |ix.file|, |data|, None) in r.entries
    ensures !ExtendsInPlace(ix.entries, lp, |data|) && OverCap(ix, maxFileSize) ==>
              && |r.entries| == (if MergesSecond(ix.entries, |data|) then |ix.entries| - 1 else |ix.entries|)
              && |r.file| == Max(|ix.file|, ix.entries[0].physicalPos + Min(|data|, ReclaimedCapacity(ix.entries, |data|)))
              && NewEntry(lp, ix.entries[0].physicalPos, Min(|data|, ReclaimedCapacity(ix.entries, |data|)),
                          Some(ReclaimedCapacity(ix.entries, |data|))) in r.entries
    ensures Sorted(ix.entries) ==> Sorted(r.entries)
  {
    var es := ix.entries;
    if ExtendsInPlace(es, lp, |data|) then ExtendLast(ix, lp, data)
    else if OverCap(ix, maxFileSize) then ReclaimFirst(ix, lp, data)
    else AppendNew(es, ix.file, lp, data)
  }

  /** The source's reclaim as written: the first slot, merged with the
      second whenever the first is too small (wherever the second lies in
      the file), takes a new entry holding ALL the bytes, whose ceiling is
      the summed capacity; every byte is written at the first slot's
      offset. The count stays or drops by one. */
  lemma AsWrittenReclaim(ix: Index, maxFileSize: nat, lp: int, data: seq<Byte>)
    requires !ExtendsInPlace(ix.entries, lp, |data|) && ShouldReclaim(ix.entries, maxFileSize)
    requires AddEntryAsWritten(ix, maxFileSize, lp, data).Some?
    ensures var r := AddEntryAsWritten(ix, maxFileSize, lp, data).value;
            var es := ix.entries;
            var merged := es[0].Capacity() < |data|;
            var k := if merged then 2 else 1;
            var capacity := if merged then es[0].Capacity() + es[1].Capacity() else es[0].Capacity();
            && |r.entries| == |es| + 1 - k
            && multiset(r.entries) == multiset(es[k..]) + multiset{NewEntry(lp, es[0].physicalPos, |data|, Some(capacity))}
            && r.file == WriteAt(ix.file, es[0].physicalPos, data)
  {
    var es := ix.entries;
    if es[0].Capacity() < |data| {
      var capacity := es[0].Capacity() + es[1].Capacity();
      assert AddEntryAsWritten(ix, maxFileSize, lp, data).value
          == Reuse(es[2..], ix.file, es[0].physicalPos, capacity, lp, data);
      ReuseShape(es[2..], ix.file, es[0].physicalPos, capacity, lp, data);
    } else {
      assert AddEntryAsWritten(ix, maxFileSize, lp, data).value
          == Reuse(es[1..], ix.file, es[0].physicalPos, es[0].Capacity(), lp, data);
      ReuseShape(es[1..], ix.file, es[0].physicalPos, es[0].Capacity(), lp, data);
    }
  }

  /** Where neither trigger fires, or the bytes extend in place, the source
      and the corrected policy agree. */
  lemma AsWrittenAgreesOffReclaim(ix: Index, maxFileSize: nat, lp: int, data: seq<Byte>)
    ensures ExtendsInPlace(ix.entries, lp, |data|)
            || (!ShouldReclaim(ix.entries, maxFileSize) && !OverCap(ix, maxFileSize)) ==>
              AddEntryAsWritten(ix, maxFileSize, lp, data) == Some(AddEntry(ix, maxFileSize, lp, data))
  {
  }

  /** What the corrected ring `addEntry` does in each case: in place it
      grows the abutting entry and writes after it, leaving the others; a
      reclaim drops exactly the first entry (and the second when its slot
      is merged) and writes as many bytes as the reclaimed space holds at
      the first slot's offset; otherwise a new uncapped entry is appended
      at the end of the file. */
  lemma AddEntryPlaces(ix: Index, maxFileSize: nat, lp: int, data: seq<Byte>)
    ensures var r := AddEntry(ix, maxFileSize, lp, data);
            var es := ix.entries;
            ExtendsInPlace(es, lp, |data|) ==>
              var i := FindAbutting(es, lp).value;
              && r.entries == es[i := Grow(es[i], |data|)]
              && r.file == WriteAt(ix.file, es[i].PhysicalEnd(), data)
    ensures var r := AddEntry(ix, maxFileSize, lp, data);
            var es := ix.entries;
            !ExtendsInPlace(es, lp, |data|) && OverCap(ix, maxFileSize) ==>
              var k := if MergesSecond(es, |data|) then 2 else 1;
              var capacity := ReclaimedCapacity(es, |data|);
              var m := Min(|data|, capacity);
              && multiset(r.entries) == multiset(es[k..]) + multiset{NewEntry(lp, es[0].physicalPos, m, Some(capacity))}
              && r.file == WriteAt(ix.file, es[0].physicalPos, data[..m])
    ensures var r := AddEntry(ix, maxFileSize, lp, data);
            !ExtendsInPlace(ix.entries, lp, |data|) && !OverCap(ix, maxFileSize) ==>
              && r.file == ix.file + data
              && multiset(r.entries) == multiset(ix.entries) + multiset{NewEntry(lp, |ix.file|, |data|, None)}
  {
    var es := ix.entries;
    if !ExtendsInPlace(es, lp, |data|) && OverCap(ix, maxFileSize) {
      var capacity := ReclaimedCapacity(es, |data|);
      var m := Min(|data|, capacity);
      var rest := if MergesSecond(es, |data|) then es[2..] else es[1..];
      ReuseShape(rest, ix.file, es[0].physicalPos, capacity, lp, data[..m]);
    }
  }

  // ---------------------------------------------------------------------
  // The ring invariant: every entry owns the whole of its capacity

  /** The spaces two entries may occupy do not overlap in the file. */
  predicate FootprintApart(a: Entry, b: Entry)
  {
    a.physicalPos + a.Capacity() <= b.physicalPos || b.physicalPos + b.Capacity() <= a.physicalPos
  }

  /** Each entry's whole capacity lies in the file and belongs to it alone. */
  ghost predicate Reserved(ix: Index)
  {
    && (forall i, j :: 0 <= i < j < |ix.entries| ==> FootprintApart(ix.entries[i], ix.entries[j]))
    && (forall i :: 0 <= i < |ix.entries| ==> ix.entries[i].physicalPos + ix.entries[i].Capacity() <= |ix.file|)
  }

  ghost predicate RingValid(ix: Index, stream: seq<Byte>)
  {
    Valid(ix, stream) && Reserved(ix)
  }

  lemma FootprintApartAt(es: seq<Entry>, i: nat, j: nat)
    requires forall a, b :: 0 <= a < b < |es| ==> FootprintApart(es[a], es[b])
    requires i < |es| && j < |es| && i != j
    ensures FootprintApart(es[i], es[j])
  {
    if j < i {
      assert FootprintApart(es[j], es[i]);
    }
  }

  lemma ReservedSuffix(ix: Index, k: nat)
    requires Reserved(ix)
    requires k <= |ix.entries|
    ensures Reserved(Index(ix.entries[k..], ix.file))
  {
    var es := ix.entries[k..];
    forall i, j | 0 <= i < j < |es|
      ensures FootprintApart(es[i], es[j])
    {
      assert es[i] == ix.entries[i + k] && es[j] == ix.entries[j + k];
    }
  }

  lemma InsertKeepsReserved(es: seq<Entry>, e: Entry, file: seq<Byte>)
    requires Reserved(Index(es, file))
    requires forall i :: 0 <= i < |es| ==> FootprintApart(es[i], e)
    requires e.physicalPos + e.Capacity() <= |file|
    ensures Reserved(Index(InsertSorted(es, e), file))
  {
    var r := InsertSorted(es, e);
    forall i, j | 0 <= i < j < |r|
      ensures FootprintApart(r[i], r[j])
    {
      var a := InsertedAt(es, e, i);
      var b := InsertedAt(es, e, j);
      if a < 0 {
        assert FootprintApart(es[b], e);
      } else if b < 0 {
        assert FootprintApart(es[a], e);
      } else {
        FootprintApartAt(es, a, b);
      }
    }
    InsertSortedShape(es, e);
  }

  /** What the in-place path knows about the abutting entry. */
  lemma ExtendsInPlaceFacts(es: seq<Entry>, lp: int, n: nat) returns (i: nat)
    requires ExtendsInPlace(es, lp, n)
    ensures FindAbutting(es, lp) == Some(i) && i < |es|
    ensures es[i].LogicalEnd() == lp && !IsOut(es[i], n)
    ensures forall j :: 0 <= j < |es| ==> es[j].physicalPos <= es[i].physicalPos
  {
    i := FindAbutting(es, lp).value;
  }

  /** An entry whose space starts at or below `e`'s lies wholly below it. */
  lemma BelowLast(x: Entry, e: Entry)
    requires FootprintApart(x, e)
    requires x.physicalPos <= e.physicalPos && e.size > 0 && e.CapacityOk()
    ensures x.physicalPos + x.Capacity() <= e.physicalPos
  {
  }

  lemma ExtendLastRingValid(ix: Index, lp: int, data: seq<Byte>, stream: seq<Byte>)
    requires RingValid(ix, stream)
    requires ExtendsInPlace(ix.entries, lp, |data|)
    requires lp + |data| <= |stream|
    requires data == stream[lp .. lp + |data|]
    ensures RingValid(ExtendLast(ix, lp, data), stream)
  {
    var es := ix.entries;
    var i := ExtendsInPlaceFacts(es, lp, |data|);
    var e := es[i];
    assert Good(ix.file, stream, e);
    forall j | 0 <= j < |es|
      ensures !Collides(e, |data|, es[j])
    {
    }
    ExtendValid(ix, stream, i, data);
    ExtendLastReserved(ix, lp, data, i);
  }

  /** Growing the physically last entry within its ceiling keeps every
      entry's space to itself. */
  lemma ExtendLastReserved(ix: Index, lp: int, data: seq<Byte>, i: nat)
    requires Reserved(ix)
    requires ExtendsInPlace(ix.entries, lp, |data|)
    requires FindAbutting(ix.entries, lp) == Some(i) && i < |ix.entries|
    requires ix.entries[i].size > 0 && ix.entries[i].CapacityOk()
    requires forall j :: 0 <= j < |ix.entries| ==> ix.entries[j].physicalPos <= ix.entries[i].physicalPos
    ensures Reserved(ExtendLast(ix, lp, data))
  {
    var es := ix.entries;
    var e := es[i];
    var g := Grow(e, |data|);
    var r := ExtendLast(ix, lp, data);
    assert r.entries == es[i := g];
    assert |ix.file| <= |r.file|;
    assert g.physicalPos + g.Capacity() <= |r.file|;
    forall j | 0 <= j < |es| && j != i
      ensures FootprintApart(es[j], g)
    {
      FootprintApartAt(es, i, j);
      BelowLast(es[j], e);
    }
    forall a, b | 0 <= a < b < |r.entries|
      ensures FootprintApart(r.entries[a], r.entries[b])
    {
      if a == i {
        assert FootprintApart(es[b], g);
      } else if b == i {
        assert FootprintApart(es[a], g);
      } else {
        FootprintApartAt(es, a, b);
      }
    }
    forall a | 0 <= a < |r.entries|
      ensures r.entries[a].physicalPos + r.entries[a].Capacity() <= |r.file|
    {
      if a != i {
        assert r.entries[a] == es[a];
      }
    }
  }

  /** A survivor of a reclaim lies outside the reclaimed space. */
  lemma SurvivorApart(es: seq<Entry>, merged: bool, jj: nat, capacity: nat)
    requires forall a, b :: 0 <= a < b < |es| ==> FootprintApart(es[a], es[b])
    requires forall a :: 0 <= a < |es| ==> es[a].size > 0 && es[a].CapacityOk()
    requires |es| > 0
    requires merged ==> |es| >= 2 && es[1].physicalPos == es[0].physicalPos + es[0].Capacity()
    requires capacity == if merged then es[0].Capacity() + es[1].Capacity() else es[0].Capacity()
    requires (if merged then 2 else 1) <= jj < |es|
    ensures es[jj].physicalPos + es[jj].Capacity() <= es[0].physicalPos
         || es[0].physicalPos + capacity <= es[jj].physicalPos
  {
    FootprintApartAt(es, 0, jj);
    if merged {
      FootprintApartAt(es, 1, jj);
    }
  }

  /** Outside the space [pos, pos + capacity). */
  predicate Outside(x: Entry, pos: nat, capacity: nat)
  {
    x.physicalPos + x.Capacity() <= pos || pos + capacity <= x.physicalPos
  }

  /** Reusing a reclaimed space that no survivor reaches into keeps the
      ring invariant. */
  lemma ReclaimRingValid(ix: Index, skip: nat, capacity: nat, lp: int, written: seq<Byte>, stream: seq<Byte>)
    requires RingValid(ix, stream)
    requires 1 <= skip <= |ix.entries|
    requires ix.entries[0].physicalPos + capacity <= |ix.file|
    requires forall jj :: skip <= jj < |ix.entries| ==> Outside(ix.entries[jj], ix.entries[0].physicalPos, capacity)
    requires 0 < |written| <= capacity
    requires 0 <= lp && lp + |written| <= |stream| && written == stream[lp .. lp + |written|]
    ensures RingValid(Reuse(ix.entries[skip..], ix.file, ix.entries[0].physicalPos, capacity, lp, written), stream)
  {
    var es := ix.entries;
    var pos := es[0].physicalPos;
    var rest := es[skip..];
    var e := NewEntry(lp, pos, |written|, Some(capacity));
    var file' := WriteAt(ix.file, pos, written);
    assert |file'| == |ix.file|;
    SuffixValid(ix, stream, skip);
    ReservedSuffix(ix, skip);
    forall j | 0 <= j < |rest|
      ensures FootprintApart(rest[j], e) && Apart(rest[j], e) && Good(file', stream, rest[j])
    {
      assert rest[j] == es[j + skip];
      assert Outside(rest[j], pos, capacity);
      assert Good(ix.file, stream, rest[j]);
      WriteAtFrame(ix.file, pos, written, rest[j].physicalPos, rest[j].PhysicalEnd());
    }
    assert file'[pos .. pos + |written|] == written;
    assert Good(file', stream, e);
    InsertKeepsGood(rest, e, file', stream);
    InsertKeepsDisjoint(rest, e);
    InsertKeepsReserved(rest, e, file');
  }

  lemma ReuseRingValid(ix: Index, lp: int, data: seq<Byte>, stream: seq<Byte>)
    requires RingValid(ix, stream)
    requires |ix.entries| > 0 && |data| > 0
    requires 0 <= lp && lp + |data| <= |stream|
    requires data == stream[lp .. lp + |data|]
    ensures RingValid(ReclaimFirst(ix, lp, data), stream)
  {
    var es := ix.entries;
    var capacity := ReclaimedCapacity(es, |data|);
    var merged := MergesSecond(es, |data|);
    var skip := if merged then 2 else 1;
    var k := Min(|data|, capacity);
    assert Good(ix.file, stream, es[0]);
    assert es[0].physicalPos + capacity <= |ix.file| by {
      if merged {
        assert es[1].physicalPos + es[1].Capacity() <= |ix.file|;
      }
    }
    forall jj | skip <= jj < |es|
      ensures Outside(es[jj], es[0].physicalPos, capacity)
    {
      SurvivorApart(es, merged, jj, capacity);
    }
    assert data[..k] == stream[lp .. lp + k];
    ReclaimRingValid(ix, skip, capacity, lp, data[..k], stream);
  }

  /** The corrected ring insertion keeps the index valid for the stream and
      keeps every entry's whole capacity to itself. */
  lemma AddEntryRingValid(ix: Index, maxFileSize: nat, lp: int, data: seq<Byte>, stream: seq<Byte>)
    requires RingValid(ix, stream)
    requires |data| > 0 && 0 <= lp && lp + |data| <= |stream|
    requires data == stream[lp .. lp + |data|]
    ensures RingValid(AddEntry(ix, maxFileSize, lp, data), stream)
  {
    var es := ix.entries;
    if ExtendsInPlace(es, lp, |data|) {
      ExtendLastRingValid(ix, lp, data, stream);
    } else if OverCap(ix, maxFileSize) {
      ReuseRingValid(ix, lp, data, stream);
    } else {
      AppendNewValid(es, ix.file, lp, data, stream);
      var e := NewEntry(lp, |ix.file|, |data|, None);
      InsertKeepsReserved(es, e, ix.file + data);
    }
  }

  /** The corrected trigger bounds the file by the cap plus one write, apart
      from growth in place: once the file is past the cap, a write that
      does not extend an entry in place reuses reserved space and leaves
      the file's length alone; within the cap, a write adds at most its own
      bytes. */
  lemma AddEntryCapsFile(ix: Index, maxFileSize: nat, lp: int, data: seq<Byte>)
    requires Reserved(ix)
    ensures var r := AddEntry(ix, maxFileSize, lp, data);
            !ExtendsInPlace(ix.entries, lp, |data|) && |ix.entries| > 0 && |ix.file| > maxFileSize ==>
              |r.file| == |ix.file|
    ensures var r := AddEntry(ix, maxFileSize, lp, data);
            !ExtendsInPlace(ix.entries, lp, |data|) && |ix.file| <= maxFileSize ==>
              |r.file| <= maxFileSize + |data|
  {
    var es := ix.entries;
    if !ExtendsInPlace(es, lp, |data|) && OverCap(ix, maxFileSize) {
      assert es[0].physicalPos + es[0].Capacity() <= |ix.file|;
      if MergesSecond(es, |data|) {
        assert es[1].physicalPos + es[1].Capacity() <= |ix.file|;
      }
    }
  }

  // ---------------------------------------------------------------------
  // The source as written: three concrete traces

  /** A stream whose byte at position k is k. */
  function Counting(n: nat): (s: seq<Byte>)
    requires n <= 256
    ensures |s| == n && forall k :: 0 <= k < n ==> s[k] == k
  {
    seq(n, k requires 0 <= k < n => k)
  }

  // Literal states of the trace below.
  function TraceState1(): Index { Index([NewEntry(0, 0, 1, None)], [0]) }
  function TraceState2(): Index { Index([NewEntry(0, 0, 1, None), NewEntry(10, 1, 1, None)], [0, 10]) }
  function TraceState3(): Index
  {
    Index([NewEntry(0, 0, 1, None), NewEntry(10, 1, 1, None), NewEntry(20, 2, 3, None)], [0, 10, 20, 21, 22])
  }
  function TraceState4(): Index
  {
    Index([NewEntry(20, 2, 3, None), NewEntry(30, 0, 3, Some(2))], [30, 31, 32, 21, 22])
  }

  lemma TraceStep1()
    ensures AddEntryAsWritten(Empty(), 2, 0, [0]) == Some(TraceState1())
  {
    var e1 := NewEntry(0, 0, 1, None);
    assert FindAbutting([], 0) == None;
    assert !ExtendsInPlace(Empty().entries, 0, 1) && !ShouldReclaim(Empty().entries, 2);
    assert InsertionPoint([], 0) == 0;
    assert InsertSorted([], e1) == [e1];
    assert AppendNew([], [], 0, [0]) == TraceState1();
  }

  lemma TraceStep2()
    ensures AddEntryAsWritten(TraceState1(), 2, 10, [10]) == Some(TraceState2())
  {
    var es := TraceState1().entries;
    assert FindAbutting(es, 10) == None;
    assert !ShouldReclaim(es, 2);
    assert InsertionPoint(es, 10) == 1;
    assert InsertSorted(es, NewEntry(10, 1, 1, None)) == TraceState2().entries;
    assert AppendNew(es, [0], 10, [10]) == TraceState2();
  }

  lemma TraceStep3()
    ensures AddEntryAsWritten(TraceState2(), 2, 20, [20, 21, 22]) == Some(TraceState3())
  {
    var es := TraceState2().entries;
    assert FindAbutting(es, 20) == None;
    assert !ShouldReclaim(es, 2);
    TraceAppend3();
  }

  /** The third entry goes after the other two, its bytes after theirs. */
  lemma TraceAppend3()
    ensures AppendNew(TraceState2().entries, TraceState2().file, 20, [20, 21, 22]) == TraceState3()
  {
    assert InsertionPoint(TraceState2().entries, 20) == 2;
    assert InsertSorted(TraceState2().entries, NewEntry(20, 2, 3, None)) == TraceState3().entries;
  }

  lemma TraceStep4()
    ensures AddEntryAsWritten(TraceState3(), 2, 30, [30, 31, 32]) == Some(TraceState4())
  {
    var es := TraceState3().entries;
    assert FindAbutting(es, 30) == None;
    assert ShouldReclaim(es, 2);
    assert es[2..] == [NewEntry(20, 2, 3, None)];
    assert InsertionPoint(es[2..], 30) == 1;
    assert WriteAt(TraceState3().file, 0, [30, 31, 32]) == TraceState4().file;
    assert es[0].Capacity() == 1 && es[1].Capacity() == 1;
    assert InsertSorted(es[2..], NewEntry(30, 0, 3, Some(2))) == TraceState4().entries;
    assert Reuse(es[2..], TraceState3().file, 0, 2, 30, [30, 31, 32]) == TraceState4();
  }

  lemma TraceState3Valid()
    ensures RingValid(TraceState3(), Counting(40))
  {
    TraceState3Layout();
    TraceState3Holds();
  }

  /** The third state is sorted and every entry owns its space. */
  lemma TraceState3Layout()
    ensures Sorted(TraceState3().entries) && Disjoint(TraceState3().entries) && Reserved(TraceState3())
  {
    var es := TraceState3().entries;
    assert es[0].physicalPos == 0 && es[0].Capacity() == 1;
    assert es[1].physicalPos == 1 && es[1].Capacity() == 1;
    assert es[2].physicalPos == 2 && es[2].Capacity() == 3;
  }

  /** Each entry of the third state holds the counting stream's bytes. */
  lemma TraceState3Holds()
    ensures AllGood(TraceState3().entries, TraceState3().file, Counting(40))
  {
    var s := Counting(40);
    var ix := TraceState3();
    assert ix.file[0..1] == [0] == s[0..1];
    assert ix.file[1..2] == [10] == s[10..11];
    assert ix.file[2..5] == [20, 21, 22] == s[20..23];
  }

  lemma TraceState4Corrupt()
    ensures ByteAt(TraceState3(), 20) == Some(20)
    ensures ByteAt(TraceState4(), 20) == Some(32)
    ensures !Valid(TraceState4(), Counting(40))
  {
    var s := Counting(40);
    var i4 := TraceState4();
    assert FindContaining(TraceState3().entries, 20) == Some(2);
    assert FindContaining(i4.entries, 20) == Some(0);
    assert !Holds(i4.file, s, i4.entries[0]) by {
      assert i4.file[2..5][0] == 32;
    }
  }

  /** With a cap of 2 bytes, four reads (1 byte at 0, 1 at 10, 3 at 20,
      3 at 30) make the source's ring policy reclaim the 1-byte slots at
      file offsets 0 and 1 for a 3-byte write, which lands on file offset
      2: the live entry at logical 20 then serves byte 32 instead of 20. */
  lemma AsWrittenOverwritesLiveEntry() returns (i1: Index, i2: Index, i3: Index, i4: Index)
    ensures var s := Counting(40);
            && AddEntryAsWritten(Empty(), 2, 0, s[0..1]) == Some(i1)
            && AddEntryAsWritten(i1, 2, 10, s[10..11]) == Some(i2)
            && AddEntryAsWritten(i2, 2, 20, s[20..23]) == Some(i3)
            && AddEntryAsWritten(i3, 2, 30, s[30..33]) == Some(i4)
    ensures RingValid(i3, Counting(40))
    ensures ByteAt(i3, 20) == Some(20)
    ensures ByteAt(i4, 20) == Some(32)
    ensures !Valid(i4, Counting(40))
  {
    var s := Counting(40);
    assert s[0..1] == [0];
    assert s[10..11] == [10];
    assert s[20..23] == [20, 21, 22];
    assert s[30..33] == [30, 31, 32];
    TraceStep1();
    TraceStep2();
    TraceStep3();
    TraceStep4();
    TraceState3Valid();
    TraceState4Corrupt();
    i1, i2, i3, i4 := TraceState1(), TraceState2(), TraceState3(), TraceState4();
  }

  /** With a cap of 2 bytes, a 3-byte read at 0 followed by a 5-byte read
      at 10 reaches the second `removeFirst()` with one entry in the list,
      which traps. */
  lemma AsWrittenTrapsOnSingleEntry() returns (i1: Index)
    ensures var s := Counting(40);
            && AddEntryAsWritten(Empty(), 2, 0, s[0..3]) == Some(i1)
            && AddEntryAsWritten(i1, 2, 10, s[10..15]).None?
  {
    var s := Counting(40);
    assert FindAbutting([], 0) == None;
    assert !ExtendsInPlace(Empty().entries, 0, 3) && !ShouldReclaim(Empty().entries, 2);
    assert InsertionPoint([], 0) == 0;
    assert InsertSorted([], NewEntry(0, 0, 3, None)) == [NewEntry(0, 0, 3, None)];
    i1 := Index([NewEntry(0, 0, 3, None)], s[0..3]);
    assert AppendNew([], [], 0, s[0..3]) == i1;
    assert AddEntryAsWritten(Empty(), 2, 0, s[0..3]) == Some(i1);
    assert FindAbutting(i1.entries, 10) == None;
  }

  // Literal states of the forward-seek trace below, over `Counting(80)`.
  function SeekTrace1(): Index { Index([NewEntry(70, 0, 5, None)], Counting(80)[70..75]) }
  function SeekTrace2(): Index
  {
    Index([NewEntry(0, 5, 20, None), NewEntry(70, 0, 5, None)], Counting(80)[70..75] + Counting(80)[0..20])
  }
  function SeekTrace3(): Index
  {
    Index([NewEntry(0, 5, 20, None), NewEntry(40, 25, 20, None), NewEntry(70, 0, 5, None)],
          Counting(80)[70..75] + Counting(80)[0..20] + Counting(80)[40..60])
  }

  lemma SeekStep1()
    ensures AddEntryAsWritten(Empty(), 10, 70, Counting(80)[70..75]) == Some(SeekTrace1())
  {
    var e := NewEntry(70, 0, 5, None);
    assert FindAbutting([], 70) == None;
    assert InsertionPoint([], 70) == 0;
    assert InsertSorted([], e) == [e];
    assert AppendNew([], [], 70, Counting(80)[70..75]) == SeekTrace1();
  }

  lemma SeekStep2()
    ensures AddEntryAsWritten(SeekTrace1(), 10, 0, Counting(80)[0..20]) == Some(SeekTrace2())
  {
    var es := SeekTrace1().entries;
    assert FindAbutting(es, 0) == None;
    assert !ShouldReclaim(es, 10);
    assert InsertionPoint(es, 0) == 0;
    assert InsertSorted(es, NewEntry(0, 5, 20, None)) == SeekTrace2().entries;
  }

  lemma SeekStep3()
    ensures AddEntryAsWritten(SeekTrace2(), 10, 40, Counting(80)[40..60]) == Some(SeekTrace3())
  {
    var es := SeekTrace2().entries;
    assert FindAbutting(es, 40) == None;
    assert !ShouldReclaim(es, 10);
    assert InsertionPoint(es, 40) == 1 by {
      assert InsertionPoint(es[1..], 40) == 0;
    }
    assert InsertSorted(es, NewEntry(40, 25, 20, None)) == SeekTrace3().entries;
  }

  /** The second state of the forward-seek trace is a valid ring index. */
  lemma SeekTrace2Valid()
    ensures RingValid(SeekTrace2(), Counting(80))
  {
    SeekTrace2Layout();
    SeekTrace2Holds();
  }

  lemma SeekTrace2Layout()
    ensures Sorted(SeekTrace2().entries) && Disjoint(SeekTrace2().entries) && Reserved(SeekTrace2())
  {
    var es := SeekTrace2().entries;
    assert es[0].physicalPos == 5 && es[0].Capacity() == 20;
    assert es[1].physicalPos == 0 && es[1].Capacity() == 5;
  }

  lemma SeekTrace2Holds()
    ensures AllGood(SeekTrace2().entries, SeekTrace2().file, Counting(80))
  {
    var s := Counting(80);
    var ix := SeekTrace2();
    var a, b := s[70..75], s[0..20];
    assert ix.file == a + b;
    assert (a + b)[5..25] == b;
    assert (a + b)[0..5] == a;
  }

  /** The corrected policy reclaims the 20-byte slot of the entry at 0. */
  lemma SeekStepCorrected()
    ensures |AddEntry(SeekTrace2(), 10, 40, Counting(80)[40..60]).file| == 25
  {
    var es := SeekTrace2().entries;
    assert FindAbutting(es, 40) == None;
    assert OverCap(SeekTrace2(), 10);
    assert !MergesSecond(es, 20);
  }

  /** With a cap of 10 bytes, a 5-byte read at logical 70 (a forward seek,
      as a player makes to read an index stored at the end of a file),
      then 20 bytes at 0 and 20 bytes at 40 leave the source's file at 45
      bytes. The small entry at 70 stays logically last and physically
      first, so the source's trigger never fires, and every later read
      before 70 that does not extend an entry appends as well. The
      corrected trigger reclaims on the third read: the file stays at 25
      bytes. */
  lemma RingCapDefeatedByForwardSeek() returns (i1: Index, i2: Index, i3: Index)
    ensures var s := Counting(80);
            && AddEntryAsWritten(Empty(), 10, 70, s[70..75]) == Some(i1)
            && AddEntryAsWritten(i1, 10, 0, s[0..20]) == Some(i2)
            && AddEntryAsWritten(i2, 10, 40, s[40..60]) == Some(i3)
    ensures RingValid(i2, Counting(80)) && |i2.file| == 25 && !ShouldReclaim(i2.entries, 10)
    ensures |i3.file| == 45 && !ShouldReclaim(i3.entries, 10)
    ensures |AddEntry(i2, 10, 40, Counting(80)[40..60]).file| == 25
  {
    SeekStep1();
    SeekStep2();
    SeekStep3();
    SeekTrace2Valid();
    SeekStepCorrected();
    i1, i2, i3 := SeekTrace1(), SeekTrace2(), SeekTrace3();
  }
}
